=== FILE: README.md ===
# BeatSync playback-sync model

BeatSync is a listening-room web app. One user creates a room and becomes its
host; other users join with the room's code, which has at most six
characters. The host's transport actions (play, pause, next, previous, track
end) and, for YouTube videos, a heartbeat every two seconds are written to the
room's row in a `rooms` table. Every client subscribes to that row and
reconciles its own player with it. An audio listener always seeks to the
stored time and mirrors the play flag. A YouTube listener seeks only when it
is more than a second away, and then mirrors the play flag.

This project models that core as pure transition functions:

- `Rooms`: the room row, the host gate (`isHost`, `updateRoom`) and what an
  update does to a row.
- `Transport`: the audio player's state machine in `src/App.js`. This covers
  next, previous, track end, repeat, play/pause, the listener's handler for an
  incoming row, the song fetch with its index clamp, and leaving a room.
- `AudioElement`: the `<audio>` element and the effect that reloads it
  (`src/App.js:73-81`), so that a handler's commands can be followed by
  the reload the effect adds.
- `TimeFormat`: the `m:ss` display.
- `RoomSession`: creating and joining a room (`src/Room.js`).
- `VideoSync`, `MiniPlayer`, `RoomVideoPlayer`: the shared YouTube drift
  reconciler, heartbeat and play/pause button, and the two components that use
  them.
- `Library`: the host-gated "play in room", the local player and deleting
  an entry in `src/YouTubeLibrary.js`.
- `Members`: join, heartbeat, online status and listing.
- `Chat`: the two-minute chat with its purge.
- `PlaylistView`: the playlist search and selection.

`Wrappers`, `Text` and `Seqs` hold the JavaScript built-ins the components
rely on: `Option` for `null`, `trim` and ASCII case mapping, `includes`,
`filter`, and ordering by a column.

Handlers return a `Step`: the new state, the commands for the media element
in order, and the room write if any. The effects of the outside world become
parameters:

- `roll` is the value `Math.random()` returned.
- `audioTime` and `localTime` are the sampled `currentTime`.
- `state` is the sampled `getPlayerState()`.
- `now` is `Date.now()`.
- `storeError`, `failed` and `insertOk` are the outcomes of database calls.

A thrown exception is modelled as the state reached before the throw.

Two points about echoes and drift:

- The audio handler of `src/App.js:99-127` applies every delivered row,
  including the host's own writes coming back (`Transport.ApplyRoomUpdate`).
  The YouTube listener effects return early for the host
  (`src/YouTubeMiniPlayer.js:41`, `src/RoomYouTubePlayer.js:46`), so the host
  never reacts to its own heartbeat there.
- The audio listener has no drift threshold. It always seeks to
  `playback_time || 0`. Only the YouTube players use a threshold: they seek
  when the drift is strictly more than one second.

## Model

| member | source | states |
|---|---|---|
| Rooms.IsHost | src/App.js:137 | helper without a contract: the host test is a held room, a session, and equal ids; `Rooms.AtMostOneHost` and `Rooms.UpdateRoom` state what it guarantees |
| Rooms.ServerTime | src/App.js:116 | the authoritative position is the stored `playback_time`, or 0 when the column is null |
| Rooms.UpdateRoom | src/App.js:137-147 | a write is issued iff a room is held and the session user is its host, and it carries the given columns for that room's code |
| Rooms.AtMostOneHost | src/App.js:137 | two users who both pass the host test for a room have the same id |
| Rooms.ApplyPatch | src/App.js:143-146 | an update changes exactly the columns it sets and keeps the room's code, host and all other columns |
| Rooms.ApplyPatchIdempotent | src/App.js:143-146 | storing the same update twice gives the same row as storing it once |
| Transport.RandomIndex | src/App.js:197 | `Math.floor(Math.random() * n)` is an index below n, the floor of roll times n |
| Transport.RandomIndexCoversAll | src/App.js:197 | every index of a non-empty list is produced by some random value in [0, 1) |
| Transport.NextSong | src/App.js:191-216 | no songs: nothing happens; repeat off, no shuffle and the last track: playback stops with no write; otherwise the index becomes the random one or the cyclic successor, playing starts, and the host writes that track at time 0, playing |
| Transport.PrevSong | src/App.js:219-239 | the same as "next", with the cyclic predecessor, and no stop rule |
| Transport.HandleSongEnd | src/App.js:242-256 | repeat one: seek to 0, play, and the host writes time 0, playing, or nothing without an audio element; otherwise exactly `NextSong` |
| Transport.ToggleRepeat | src/App.js:259-263 | off goes to all, all to one, and one to off; the mode always changes |
| Transport.RepeatCycle | src/App.js:259-263 | three presses return to the starting mode and two never do |
| Transport.TogglePlay | src/App.js:164-188 | no songs: nothing happens; otherwise the play flag flips, the matching play/pause command is issued, and any write carries the current track, the sampled time and the new flag. The reload effect that follows is in `AudioElement.TogglePlayRestartsTrack` |
| Transport.TogglePlayPublishes | src/App.js:164-188 | a host with a valid index always publishes the play/pause |
| Transport.FindSongIndex | src/App.js:105-107 | the result is the first index whose URL matches, or -1 exactly when none does |
| Transport.ApplyRoomUpdate | src/App.js:99-127 | an incoming row is stored. The index moves to the first song with that URL, if any. With songs loaded, the player seeks to `playback_time \|\| 0` and mirrors `is_playing`; with none, the play flag is left. The handler never writes. When the play flag changes, the reload effect that follows undoes the seek (`AudioElement.RoomUpdateLosesSeek`) |
| Transport.RoomUpdateSelectsMatchingSong | src/App.js:104-111 | a listed URL selects a song with that URL, and an unlisted one keeps the index |
| Transport.RoomUpdateIdempotent | src/App.js:99-127 | delivering the same row twice gives the same state and commands as delivering it once |
| Transport.SongsOf | src/App.js:49-53 | the query returns exactly the rows whose `user_id` is the given user, each as often as stored, ordered by `created_at` |
| Transport.ReplaceSongs | src/App.js:60-64 | the list is replaced; the index is kept when it is in range or the list is empty, and reset to 0 otherwise; nothing else changes |
| Transport.FetchSongs | src/App.js:46-65 | without a session or on a failed query nothing changes; otherwise the list holds exactly the session user's songs, each as often as stored, ordered by upload time, and the index is valid, kept when in range or when the list is empty; play flag, shuffle, repeat, room and session never change |
| Transport.LeaveRoom | src/App.js:337 | leaving drops the room, so the user is no longer host; the playback state, shuffle, repeat and session are unchanged |
| Transport.ListenersNeverWrite | src/App.js:140-141 | a user who is not the host never causes a room write from any transport handler |
| Transport.NoWritesAfterLeave | src/App.js:337 | after leaving, no transport handler writes a room |
| Transport.HandlersKeepIndexValid | src/App.js:46-256 | every handler, the song fetch included, keeps the index inside the song list |
| Transport.PrevUndoesNext | src/App.js:199 | without shuffle, "previous" returns to the track "next" advanced from |
| Transport.NextUndoesPrev | src/App.js:202-205 | without shuffle, "next" undoes "previous" iff repeat is on, the start was not the first track, or there is one song |
| Transport.ShuffleReachesEveryIndex | src/App.js:196-197 | with shuffle, next and previous can select any index |
| Transport.HostNextReachesListener | src/App.js:207-215 | after the host's "next" is stored, a listener holding the host's list (the same account, or the room fetch of `Transport.FetchRoomSongs`) with distinct URLs moves to the host's track, seeks to 0 and plays |
| Transport.OtherListenerKeepsOwnTrack | src/App.js:49-53 | a listener signed in as another user holds only their own uploads, so after the host's "next" they keep their index, play a song the host does not own, and seek to 0 |
| Transport.ListOwner | src/App.js:49-53 | the corrected fetch lists the room host's songs while in a room and the user's own otherwise; for the host both are the user |
| Transport.FetchRoomSongs | src/App.js:46-65 | the corrected fetch lists exactly the list owner's songs, each as often as stored and ordered by upload time, keeps or resets the index as the as-written fetch does, changes no setting, and is the as-written fetch outside a room and for the host |
| Transport.RoomFetchReachesListener | src/App.js:99-111 | with the corrected fetch, a listener in the host's room holds the host's list, and the host's "next" moves them to the host's track, playing from 0 |
| AudioElement.LoadEffect | src/App.js:73-81 | the effect is non-empty exactly when songs exist and the index, list or play flag changed, and is then `load()` followed by `play()` if playing |
| AudioElement.TogglePlayRestartsTrack | src/App.js:73-81 | after the host's play/pause and the effect it triggers, the element is at position 0 with the new flag, while the room stores the sampled time |
| AudioElement.SoloTogglePlayRestarts | src/App.js:73-81 | outside a room play/pause writes nothing and leaves the element at position 0 with the new flag |
| AudioElement.HostEchoSeeksBack | src/App.js:99-127 | with distinct URLs, the host's own write coming back keeps the track and returns the element to the sampled time with the new flag |
| AudioElement.RoomUpdateLosesSeek | src/App.js:73-81 | when a delivered row flips the play flag, the effect's reload leaves the listener at position 0 instead of the stored time |
| AudioElement.TrackEffect | src/App.js:73-81 | the corrected effect reloads exactly when songs exist and the index or the list changed |
| AudioElement.TogglePlayKeepsPosition | src/App.js:164-188 | with the corrected effect, play/pause keeps the element's position, matching the time written to the room |
| AudioElement.RoomUpdateKeepsSeek | src/App.js:114-126 | with the corrected effect, a row that keeps the track leaves the listener at the stored time with the stored play flag |
| AudioElement.EffectsAgreeOnTrackChange | src/App.js:73-81 | the two effects issue the same commands unless only the play flag changed, and then only the as-written one reloads |
| TimeFormat.FormatTime | src/App.js:294-299 | function without a contract of its own: `TimeFormat.FormatTimeRoundTrip` states its output format |
| TimeFormat.NatToDecimal | src/App.js:298 | a whole number prints as a non-empty digit string with no leading zero, one digit below 10 and two below 100 |
| TimeFormat.DecimalRoundTrip | src/App.js:298 | reading a printed number back gives the number |
| TimeFormat.MinutesAndSeconds | src/App.js:296-297 | for a non-negative time, minutes and seconds are whole, the seconds lie in [0, 60), and together they give the whole seconds |
| TimeFormat.PadSeconds | src/App.js:298 | the seconds field is two digits that read back as the seconds |
| TimeFormat.FormatTimeRoundTrip | src/App.js:294-299 | a non-negative time, 0 included, prints as `m:ss` and parses back to its whole seconds |
| RoomSession.GenerateCode | src/Room.js:8 | a code has min(digits, 6) characters, each a digit or upper-case letter with the value of the corresponding base-36 digit |
| RoomSession.Substring | src/Room.js:8 | `substring` returns the slice between its bounds, in either order, and never more characters than the string has |
| RoomSession.SubstringClamps | src/Room.js:8 | swapping the bounds changes nothing, and a bound outside the string acts as the nearest end |
| RoomSession.NewRoom | src/Room.js:13-18 | the inserted row has the code, the creator as host, time 0, not playing, and no track or video |
| RoomSession.CreateRoom | src/Room.js:10-25 | on success the table gains the new row, held by the client, with the creator as host, time 0, not playing and no track; a taken code or store error alerts and holds nothing |
| RoomSession.InputCode | src/Room.js:54 | the join box keeps the typed length, leaves no lower-case letter and keeps every other character |
| RoomSession.JoinRoom | src/Room.js:28-38 | a known code with a successful query holds the stored row with no alert; an unknown code or any failed query alerts "Room not found!" and holds nothing; the table is unchanged |
| RoomSession.JoinIgnoresCase | src/Room.js:54 | the typed code is upper-cased, so letter case never changes the join |
| RoomSession.GeneratedCodeIsNormal | src/Room.js:8 | a generated code is unchanged by the join box's upper-casing |
| RoomSession.CreateThenJoin | src/Room.js:8-38 | a room created with a generated code is joined by typing that code in any case |
| VideoSync.ListenerSync | src/YouTubeMiniPlayer.js:38-62 | a ready non-host with a video seeks to the server time iff the drift exceeds one second, and always ends by mirroring `is_playing`; otherwise no command |
| VideoSync.SyncConverges | src/YouTubeMiniPlayer.js:46-58 | after one sync the listener is within a second of the server time and runs iff the room is playing; a position within the limit is not touched |
| VideoSync.SyncIdempotent | src/YouTubeMiniPlayer.js:46-58 | a second sync of the same row issues no seek and changes nothing |
| VideoSync.HeartbeatTick | src/YouTubeMiniPlayer.js:65-88 | a ready host with a video writes exactly the sampled time and whether the state is "playing"; everyone else writes nothing |
| VideoSync.HeartbeatReachesListener | src/YouTubeMiniPlayer.js:66-84 | once a heartbeat is stored, one listener sync lands within a second of the host's time, running iff the host was playing |
| VideoSync.TogglePlayPause | src/YouTubeMiniPlayer.js:91-112 | a ready host pauses when playing and plays otherwise, writing the new flag; others do nothing |
| VideoSync.ToggleFlipsAndPublishes | src/YouTubeMiniPlayer.js:91-112 | the button flips the host's player, and the stored row carries the new flag |
| MiniPlayer.Sync | src/YouTubeMiniPlayer.js:38-62 | commands are issued iff a video is set, the player is ready and the user is not host; a seek happens iff the drift exceeds one second |
| MiniPlayer.Heartbeat | src/YouTubeMiniPlayer.js:65-88 | only a ready host with a video writes, and it writes the time and play flag |
| MiniPlayer.PlayPause | src/YouTubeMiniPlayer.js:91-112 | a non-host's press, or one before the player is ready, does nothing; a ready host's press pauses when the state is "playing" and plays otherwise, and writes the new flag to the room's row |
| MiniPlayer.View | src/YouTubeMiniPlayer.js:114-144 | nothing renders without a video; the host gets the button, showing pause while playing, and others get the note |
| RoomVideoPlayer.Sync | src/RoomYouTubePlayer.js:44-68 | commands are issued iff ready, a video is set and the user is not host; a seek happens iff the drift exceeds one second |
| RoomVideoPlayer.Heartbeat | src/RoomYouTubePlayer.js:19-41 | only a ready host with a video writes, and it writes the time and play flag |
| RoomVideoPlayer.PlayPause | src/RoomYouTubePlayer.js:71-93 | a non-host's press, or one before the player is ready, does nothing; a ready host's press pauses when the state is "playing" and plays otherwise, and writes the new flag to the room's row |
| RoomVideoPlayer.View | src/RoomYouTubePlayer.js:99-139 | without a video a message shows; otherwise the host sees play/pause and listeners see the autoplay hint |
| RoomVideoPlayer.PanelMatchesBehaviour | src/RoomYouTubePlayer.js:99-139 | the autoplay hint shows exactly to users whom the sync commands, and the play/pause button exactly to users whose heartbeat writes |
| RoomVideoPlayer.AgreesWithMiniPlayer | src/RoomYouTubePlayer.js:11-93 | with a session both players have the same host test, sync, heartbeat and button |
| Library.LibraryHostIsRoomHost | src/YouTubeLibrary.js:19 | the library's host test is the room host gate |
| Library.PlayInRoom | src/YouTubeLibrary.js:89-104 | no room or a non-host gets the matching alert; the host writes the video, time 0 and playing to the room's row |
| Library.PlayInRoomReachesListeners | src/YouTubeLibrary.js:93-100 | after the host's "play in room" a ready listener sees the video and, after one sync, plays within a second of the start |
| Library.Search | src/YouTubeLibrary.js:35 | a query that trims to empty is rejected; any other query is sent as typed |
| Library.ShowsRoomButton | src/YouTubeLibrary.js:179-183 | predicate without a contract: its meaning is stated by `Library.RoomButtonIffPublishes` |
| Library.ShowsDeleteButton | src/YouTubeLibrary.js:185 | predicate without a contract: its meaning is stated by `Library.DeleteFromLibrary` and `Library.DeleteOnlyOwnEntry` |
| Library.RoomButtonIffPublishes | src/YouTubeLibrary.js:179-183 | the "Room" button shows exactly when pressing it publishes |
| Library.PlaySong | src/YouTubeLibrary.js:106-110 | the local player takes the entry's video, title and thumbnail |
| Library.PlaySongMatchesRoom | src/YouTubeLibrary.js:93-110 | the local "play" and the host's "play in room" select the same video |
| Library.DeleteFromLibrary | src/YouTubeLibrary.js:79-87 | without the button or on a failed delete the library is unchanged; otherwise it loses exactly the rows with the entry's id, and every other row stays as often as it was stored |
| Library.DeleteOnlyOwnEntry | src/YouTubeLibrary.js:185-191 | with unique ids, a delete removes at most the pressed entry, and only one the user added |
| Members.NewMember | src/RoomMembers.js:59-65 | the inserted row is the caller's in that room, with their e-mail, joined now, and no `last_seen`, so it shows offline once the clock is past 20 s |
| Members.Join | src/RoomMembers.js:47-69 | nothing happens without a room and a session; the caller's row is inserted only if they have none in that room |
| Members.JoinKeepsOneRowPerUser | src/RoomMembers.js:51-65 | after a join the caller has a row, and no user has two rows in a room |
| Members.JoinIdempotent | src/RoomMembers.js:57 | joining again at any time changes nothing |
| Members.Heartbeat | src/RoomMembers.js:72-84 | `last_seen` becomes the current time on the caller's rows in the room, and every other row is unchanged |
| Members.IsOnline | src/RoomMembers.js:87-90 | a member is online iff less than 20 s passed since `last_seen`; a missing `last_seen` counts as time 0 |
| Members.HeartbeatPresence | src/RoomMembers.js:76-90 | after a beat the caller is online iff less than 20 s has passed; others' status is unaffected |
| Members.HeartbeatKeepsOneRowPerUser | src/RoomMembers.js:72-84 | a heartbeat keeps one row per user |
| Members.FetchMembers | src/RoomMembers.js:7-17 | the list is exactly the room's rows, each as often as stored, ordered by `joined_at`; with no room or a failed query it is unchanged |
| Members.JoinedUserListed | src/RoomMembers.js:47-69 | after a join the caller appears in the room's member list |
| Chat.FetchMessages | src/RoomChat.js:8-21 | the list is exactly the room's messages from the last two minutes, each as often as stored, oldest first; with no room or a failed query it is unchanged |
| Chat.OnInsert | src/RoomChat.js:39-48 | a pushed message is appended iff it is at most two minutes old |
| Chat.OnInsertMatchesRefetch | src/RoomChat.js:39-48 | appending a pushed message to the fetched list gives the same messages as fetching again after the insert |
| Chat.Purge | src/RoomChat.js:61-68 | the purge removes exactly this room's messages older than two minutes |
| Chat.PurgeComplementsWindow | src/RoomChat.js:11-17 | a room message survives the purge iff the fetch with the same cutoff shows it, and the kept and purged rows together are the table |
| Chat.FetchAfterPurge | src/RoomChat.js:64-70 | fetching after the purge, at the same time or later, shows the same list as fetching without it |
| Chat.SendMessage | src/RoomChat.js:76-89 | blank text inserts nothing; otherwise the typed text is inserted; the box clears iff the insert succeeded, and a failure alerts |
| Chat.IsMine | src/RoomChat.js:103 | predicate without a contract: `Chat.SentMessageIsMine` states when a message is styled as the reader's |
| Chat.SentMessageIsMine | src/RoomChat.js:103 | a sent message is styled as the reader's own iff the reader is its sender |
| Chat.SentMessageShownForTwoMinutes | src/RoomChat.js:11-17 | a sent message is listed iff it is at most two minutes old |
| Text.TrimEmptyIffBlank | src/RoomChat.js:77 | `trim()` gives the empty string iff every character is whitespace |
| Text.IncludesIffOccurs | src/Playlist.js:12 | `includes` holds iff the needle occurs at some position |
| PlaylistView.Filter | src/Playlist.js:11-13 | the list holds exactly the songs whose lower-cased name contains the lower-cased query, and is no longer than the playlist |
| PlaylistView.ListedPositions | src/Playlist.js:30 | row k shows the song at an increasing sequence of playlist positions |
| PlaylistView.EmptyQueryListsAll | src/Playlist.js:11-13 | an empty query lists the whole playlist |
| PlaylistView.FilterIgnoresCase | src/Playlist.js:12 | the list does not depend on the letter case of the query |
| PlaylistView.ListedIffOccurs | src/Playlist.js:12 | a song is listed iff the query occurs in its name, ignoring case |
| PlaylistView.FilterIdempotent | src/Playlist.js:11-13 | filtering the list again with the same query changes nothing |
| PlaylistView.ClickAsWritten | src/Playlist.js:39 | clicking row k sets the index to k and nothing else |
| PlaylistView.HighlightedAsWritten | src/Playlist.js:34 | predicate without a contract: `PlaylistView.ClickAsWrittenPlaysWrongSong` shows what it highlights |
| PlaylistView.ClickAsWrittenAgreesUnfiltered | src/Playlist.js:30-39 | with an empty query the clicked row is the song selected |
| PlaylistView.ClickAsWrittenPlaysWrongSong | src/Playlist.js:34-39 | with a filter the clicked song is not the one selected, and the playing song is not highlighted |
| PlaylistView.Click | src/Playlist.js:39 | the corrected click selects the playlist index of the song shown in row k |
| PlaylistView.ClickHighlightsClickedRow | src/Playlist.js:34 | after a corrected click exactly the clicked row is highlighted |
| PlaylistView.HighlightIffListed | src/Playlist.js:34 | some row is highlighted iff the current song is listed |
| PlaylistView.DeleteTarget | src/Playlist.js:44 | delete gets the song record shown in the row, which is a listed song of the playlist |

## Left out

- Supabase calls, realtime channels, subscriptions and their clean-up are out of scope. The model has what a call sends and what a delivered row does, not the transport.
- Concurrency and message ordering are out of scope. Handlers are applied one at a time, and an `await` is treated as finished.
- The `setInterval` timers (2 s, 10 s, 30 s) are out of scope. One tick of each is modelled.
- The media elements are kept only as an idealised position and paused flag (`AudioElement.Run`, `VideoSync.Perform`). Their current time is otherwise taken as a sampled value. Loading, buffering, autoplay blocking and `onReady` are out of scope.
- Floating point is out of scope. Times are mathematical reals, so NaN and `undefined` times are not covered, and `formatTime` sees only numbers.
- Unicode case mapping is out of scope. `toLowerCase`/`toUpperCase` are modelled on ASCII letters only.
- src/Auth.js, src/UploadSong.js, src/RoomPlaylist.js and the library's add and HTTP search calls are not part of this model.
- `handleSeek`, volume, logout and the display-only time handlers of src/App.js are not modelled. `handleSeek` writes the slider's string value.
- `Transport.FetchSongs`: the effect of src/App.js:68-70 that calls it is not modelled, and the alert on a failed query is only the unchanged state. `fetchSongs` is memoised on `[session, currentIndex]` (src/App.js:65), so that effect runs at sign-in, whenever `onAuthStateChange` hands over a new session object (src/App.js:34-37), and after every index change: next, previous, a playlist click, or a delivered row that moves the index.
- `AudioElement`: React compares the `songs` dependency by reference, while the model compares lists by value. Each refetch above therefore installs a new list and reruns the load effect of src/App.js:73-81, which the model does not show. After a track change that is a second `load()` (and `play()`), rewinding again whatever played since the first. After a new session object it restarts the current track, under the corrected `AudioElement.TrackEffect` as well. The lemmas that keep the position assume the index is unchanged, so no refetch follows them.
- `Members.Join`: the select and the insert are treated as one atomic step. A failed select, which the source treats like "no row", is not modelled.
- `RoomSession.CreateRoom`: `room_code` is assumed to be a unique key, so a taken code behaves like a store error.
- `RoomSession.CreateRoom`: the alert shows the store's `error.message`; the model uses one fixed text for every failure.
- `RoomSession.JoinRoom`: the kind of query failure (network error, several rows for `.single()`) is one flag.
- `Members.NewMember` and `Chat.FetchMessages`: column defaults (`joined_at`, `created_at`) are given by the caller as the current time; ISO-date parsing is not modelled.
- `Members.NewMember`: the insert sets no `last_seen`, and the table schema is not part of this model. The model assumes the column has no default, so a new member reads as offline until its first heartbeat once the clock is past 20 s.
- `Chat.SendMessage`: the alert shows `error.message`, which is modelled only as a flag.
- `Library.DeleteFromLibrary`: the refetch after a delete is the library minus the deleted rows; the alert on failure is not modelled.

## Findings

| source | as written | input that shows it | evidently intended | confidence | as-written member | corrected member |
|---|---|---|---|---|---|---|
| src/Playlist.js:34-39 | clicking row k sets `currentIndex` to k, the row's position in the filtered list, and the highlight compares that position with `currentIndex` | playlist [Alpha, Beta], query "beta": the only row shows Beta, and clicking it selects Alpha; with Beta playing, no row is highlighted | select, and highlight, the playlist index of the song shown in the row | not executed | PlaylistView.ClickAsWrittenPlaysWrongSong | PlaylistView.Click |
| src/App.js:49-53 | the song list is fetched with `.eq("user_id", session.user.id)`, so each client holds only its own uploads, and a room update selects a track by URL in that list | host and listener signed in as different users, each with one upload: after the host's "next", the listener finds no song with the host's URL and plays its own track from 0 | while in a room, listeners hold the host's list, so the stored URL names a song they have | not executed | Transport.OtherListenerKeepsOwnTrack | Transport.RoomFetchReachesListener |
| src/App.js:73-81 | the load effect depends on `isPlaying`, and `load()` rewinds the element to 0 | any play/pause press with songs loaded: the track restarts from 0, while the room stores the paused position; outside a room the restart is final, listeners whose play flag changes end at 0, and only the host is moved back when its own write echoes | reload only when the track or the list changes | not executed | AudioElement.TogglePlayRestartsTrack | AudioElement.TogglePlayKeepsPosition |

=== FILE: audio_element.dfy ===
/**
 * The <audio> element of src/App.js and the effect that reloads it
 * (src/App.js:73-81). A handler's commands run first; React then re-renders
 * and runs the effect when one of its dependencies changed. `load()`
 * rewinds the element to 0 and pauses it, as the HTML media element load
 * algorithm does.
 */
module AudioElement {
  import opened Wrappers
  import opened Rooms
  import opened Transport

  /** The element's position and whether it is paused. */
  datatype Element = Element(time: real, paused: bool)

  /** The element after a sequence of commands. */
  function Run(e: Element, ops: seq<AudioOp>): Element
    decreases |ops|
  {
    if |ops| == 0 then e
    else
      var f := match ops[0]
        case Seek(t) => e.(time := t)
        case Play => e.(paused := false)
        case Pause => e.(paused := true)
        case Load => Element(0.0, true);
      Run(f, ops[1..])
  }

  /** `load()` followed by `play()` when the state says playing. */
  function Reload(playing: bool): seq<AudioOp> {
    [Load] + (if playing then [Play] else [])
  }

  /** The dependencies as written: `[currentIndex, songs, isPlaying]`. */
  predicate LoadDepsChanged(before: Player, after: Player) {
    before.currentIndex != after.currentIndex || before.songs != after.songs || before.isPlaying != after.isPlaying
  }

  /** The effect as written: with songs, any change of index, list or play flag reloads the track. */
  function LoadEffect(before: Player, after: Player): (ops: seq<AudioOp>)
    ensures ops != [] <==> |after.songs| > 0 && LoadDepsChanged(before, after)
    ensures ops != [] ==> ops[0] == Load && ops[1..] == (if after.isPlaying then [Play] else [])
  {
    if |after.songs| > 0 && LoadDepsChanged(before, after) then Reload(after.isPlaying) else []
  }

  /** The element after a handler's step and the re-render's effect, as written. */
  function Settle(before: Player, s: Step, e: Element): Element {
    Run(Run(e, s.audio), LoadEffect(before, s.player))
  }

  lemma RunReload(e: Element, playing: bool)
    ensures Run(e, Reload(playing)) == Element(0.0, !playing)
  {
    var ops := Reload(playing);
    var rewound := Element(0.0, true);
    assert Run(e, ops) == Run(rewound, ops[1..]);
    if playing {
      assert ops[1..] == [Play];
      RunOne(rewound, Play);
    } else {
      assert ops[1..] == [];
    }
  }

  lemma RunOne(e: Element, op: AudioOp)
    ensures Run(e, [op]) == match op
      case Seek(t) => e.(time := t)
      case Play => e.(paused := false)
      case Pause => e.(paused := true)
      case Load => Element(0.0, true)
  {
    assert [op][1..] == [];
  }

  /**
   * As written, play/pause rewinds the track: the flag change reruns the
   * effect, whose `load()` puts the element back at 0, while the host's
   * write publishes the position it had before.
   */
  lemma TogglePlayRestartsTrack(p: Player, e: Element)
    requires |p.songs| > 0 && ValidIndex(p) && IsHost(p.room, p.session)
    ensures
      var s := TogglePlay(p, e.time);
      && Settle(p, s, e) == Element(0.0, p.isPlaying)
      && ApplyPatch(p.room.value, s.write.value.patch).playbackTime == Some(e.time)
  {
    var s := TogglePlay(p, e.time);
    RunOne(e, s.audio[0]);
    assert s.audio == [s.audio[0]];
    RunReload(Run(e, s.audio), s.player.isPlaying);
  }

  /**
   * Outside a room the restart is final: nothing is written, so no row comes
   * back to move the element to where it was.
   */
  lemma SoloTogglePlayRestarts(p: Player, e: Element)
    requires |p.songs| > 0 && ValidIndex(p) && p.room.None?
    ensures TogglePlay(p, e.time).write == None
    ensures Settle(p, TogglePlay(p, e.time), e) == Element(0.0, p.isPlaying)
  {
    var s := TogglePlay(p, e.time);
    RunOne(e, s.audio[0]);
    assert s.audio == [s.audio[0]];
    RunReload(Run(e, s.audio), s.player.isPlaying);
  }

  /**
   * The host's own write comes back through the room subscription
   * (src/App.js:99-127). With distinct URLs it keeps the track and seeks to
   * the stored time, so for the host the echo undoes the restart.
   */
  lemma HostEchoSeeksBack(p: Player, e: Element)
    requires |p.songs| > 0 && ValidIndex(p) && IsHost(p.room, p.session)
    requires DistinctUrls(p.songs) && p.songs[p.currentIndex].url != ""
    ensures
      var s := TogglePlay(p, e.time);
      var row := ApplyPatch(p.room.value, s.write.value.patch);
      var echo := ApplyRoomUpdate(s.player, row);
      Settle(s.player, echo, Settle(p, s, e)) == Element(e.time, p.isPlaying)
  {
    TogglePlayRestartsTrack(p, e);
    var s := TogglePlay(p, e.time);
    var row := ApplyPatch(p.room.value, s.write.value.patch);
    var echo := ApplyRoomUpdate(s.player, row);
    var url := p.songs[p.currentIndex].url;
    assert row.currentSongUrl == Some(url);
    assert FindSongIndex(p.songs, url) == p.currentIndex;
    assert echo.player.currentIndex == s.player.currentIndex;
    assert LoadEffect(s.player, echo.player) == [];
    var mid := Settle(p, s, e);
    var op := if row.isPlaying then Play else Pause;
    assert echo.audio == [Seek(e.time)] + [op];
    assert Run(mid, echo.audio) == Run(mid.(time := e.time), [op]);
    RunOne(mid.(time := e.time), op);
  }

  /**
   * As written, an incoming row that changes the play flag loses its seek:
   * the handler seeks to `playback_time || 0`, then the effect reloads at 0.
   */
  lemma RoomUpdateLosesSeek(p: Player, u: Room, e: Element)
    requires HasAudio(p) && u.isPlaying != p.isPlaying
    ensures Settle(p, ApplyRoomUpdate(p, u), e) == Element(0.0, !u.isPlaying)
  {
    var s := ApplyRoomUpdate(p, u);
    RunReload(Run(e, s.audio), s.player.isPlaying);
  }

  /** The dependencies, corrected: the track changed (`[currentIndex, songs]`). */
  predicate TrackChanged(before: Player, after: Player) {
    before.currentIndex != after.currentIndex || before.songs != after.songs
  }

  /** The effect, corrected: reload only when the track changed. */
  function TrackEffect(before: Player, after: Player): (ops: seq<AudioOp>)
    ensures ops != [] <==> |after.songs| > 0 && TrackChanged(before, after)
    ensures ops != [] ==> ops[0] == Load && ops[1..] == (if after.isPlaying then [Play] else [])
  {
    if |after.songs| > 0 && TrackChanged(before, after) then Reload(after.isPlaying) else []
  }

  /** The element after a handler's step and the corrected effect. */
  function SettleFixed(before: Player, s: Step, e: Element): Element {
    Run(Run(e, s.audio), TrackEffect(before, s.player))
  }

  /**
   * With the corrected effect, play/pause keeps the position, so the host's
   * element stays where the published row says it is.
   */
  lemma TogglePlayKeepsPosition(p: Player, e: Element)
    requires |p.songs| > 0 && ValidIndex(p) && IsHost(p.room, p.session)
    ensures
      var s := TogglePlay(p, e.time);
      && SettleFixed(p, s, e) == Element(e.time, p.isPlaying)
      && ApplyPatch(p.room.value, s.write.value.patch).playbackTime == Some(SettleFixed(p, s, e).time)
  {
    var s := TogglePlay(p, e.time);
    RunOne(e, s.audio[0]);
    assert s.audio == [s.audio[0]];
  }

  /**
   * With the corrected effect, a row that keeps the track leaves the listener
   * at the row's position, running exactly when the row says so.
   */
  lemma RoomUpdateKeepsSeek(p: Player, u: Room, e: Element)
    requires HasAudio(p) && ApplyRoomUpdate(p, u).player.currentIndex == p.currentIndex
    ensures SettleFixed(p, ApplyRoomUpdate(p, u), e) == Element(ServerTime(u), !u.isPlaying)
  {
    var s := ApplyRoomUpdate(p, u);
    var e1 := e.(time := ServerTime(u));
    assert s.audio[1..] == [s.audio[1]];
    assert Run(e, s.audio) == Run(e1, [s.audio[1]]);
    RunOne(e1, s.audio[1]);
  }

  /** The two effects differ only when the play flag alone changed. */
  lemma EffectsAgreeOnTrackChange(before: Player, after: Player)
    ensures TrackChanged(before, after) || before.isPlaying == after.isPlaying ==>
      LoadEffect(before, after) == TrackEffect(before, after)
    ensures !TrackChanged(before, after) && before.isPlaying != after.isPlaying && |after.songs| > 0 ==>
      LoadEffect(before, after) != [] && TrackEffect(before, after) == []
  {
  }
}

=== FILE: chat.dfy ===
/**
 * src/RoomChat.js: the room chat with its two-minute retention window.
 * `room_messages` is a sequence of rows with creation times in milliseconds;
 * the current time `Date.now()` is the parameter `now`.
 */
module Chat {
  import opened Wrappers
  import opened Text
  import opened Rooms
  import opened Seqs

  datatype Message = Message(roomCode: string, userId: string, text: string, createdAt: int)

  type MessageTable = seq<Message>

  /** Two minutes, the window the chat shows and keeps. */
  const RetentionMs: int := 2 * 60 * 1000

  function Cutoff(now: int): int {
    now - RetentionMs
  }

  /** A row of this room created at or after the cutoff. */
  predicate InWindow(m: Message, code: string, cutoff: int) {
    m.roomCode == code && m.createdAt >= cutoff
  }

  /** A row of this room created before the cutoff. */
  predicate Expired(m: Message, code: string, cutoff: int) {
    m.roomCode == code && m.createdAt < cutoff
  }

  /**
   * `fetchMessages` (src/RoomChat.js:8-21): without a room, or when the query
   * fails, the shown list stays; otherwise it becomes the room's rows with
   * `created_at >= now - 120000`, oldest first.
   */
  function FetchMessages(shown: seq<Message>, table: MessageTable, room: Option<Room>, now: int, failed: bool): (r: seq<Message>)
    ensures room.None? || failed ==> r == shown
    ensures room.Some? && !failed ==>
      && SortedBy(r, (m: Message) => m.createdAt)
      && (forall m :: m in r <==> m in table && InWindow(m, room.value.code, Cutoff(now)))
      && multiset(r) == multiset(Keep(table, (m: Message) => InWindow(m, room.value.code, Cutoff(now))))
  {
    if room.None? || failed then shown
    else
      var code := room.value.code;
      var cutoff := Cutoff(now);
      var kept := Keep(table, (m: Message) => InWindow(m, code, cutoff));
      var r := SortBy(kept, (m: Message) => m.createdAt);
      SameElements(r, kept);
      r
  }

  /** The realtime INSERT handler (src/RoomChat.js:39-48): append a fresh message, drop a stale one. */
  function OnInsert(shown: seq<Message>, msg: Message, now: int): (r: seq<Message>)
    ensures msg.createdAt >= Cutoff(now) ==> r == shown + [msg]
    ensures msg.createdAt < Cutoff(now) ==> r == shown
  {
    if msg.createdAt >= Cutoff(now) then shown + [msg] else shown
  }

  /** The 30-second purge (src/RoomChat.js:61-68): delete this room's rows created before the cutoff. */
  function Purge(table: MessageTable, code: string, now: int): (r: MessageTable)
    ensures forall m :: m in r <==> m in table && !Expired(m, code, Cutoff(now))
  {
    var cutoff := Cutoff(now);
    Keep(table, (m: Message) => !Expired(m, code, cutoff))
  }

  /**
   * For one cutoff the purge and the fetch split the room's rows: every row
   * is either shown or deleted, never both, and the deleted ones are exactly
   * the expired ones, with their multiplicities.
   */
  lemma {:induction false} PurgeComplementsWindow(table: MessageTable, code: string, now: int)
    ensures forall m :: m in table && m.roomCode == code ==>
      (m in Purge(table, code, now) <==> InWindow(m, code, Cutoff(now)))
    ensures multiset(table) ==
      multiset(Purge(table, code, now)) + multiset(Keep(table, (m: Message) => Expired(m, code, Cutoff(now))))
  {
    var cutoff := Cutoff(now);
    var keep := (m: Message) => !Expired(m, code, cutoff);
    var gone := (m: Message) => Expired(m, code, cutoff);
    forall x
      ensures multiset(table)[x] == multiset(Keep(table, keep))[x] + multiset(Keep(table, gone))[x]
    {
      KeepCounts(table, keep, x);
      KeepCounts(table, gone, x);
    }
  }

  /**
   * Purging never removes a message the window shows: a fetch at the purge's
   * time or any later time shows the same list with or without the purge.
   */
  lemma FetchAfterPurge(shown: seq<Message>, table: MessageTable, room: Room, now: int, later: int)
    requires now <= later
    ensures FetchMessages(shown, Purge(table, room.code, now), Some(room), later, false)
         == FetchMessages(shown, table, Some(room), later, false)
  {
    var cutoff := Cutoff(now);
    var keep := (m: Message) => !Expired(m, room.code, cutoff);
    var laterCutoff := Cutoff(later);
    var window := (m: Message) => InWindow(m, room.code, laterCutoff);
    KeepKeep(table, keep, window);
  }

  /**
   * The realtime push agrees with a refetch: for a message of this room,
   * appending it to the fetched list shows the same messages as fetching
   * again after it was stored.
   */
  lemma OnInsertMatchesRefetch(shown: seq<Message>, table: MessageTable, room: Room, msg: Message, now: int)
    requires msg.roomCode == room.code
    ensures forall m :: m in OnInsert(FetchMessages(shown, table, Some(room), now, false), msg, now)
                    <==> m in FetchMessages(shown, table + [msg], Some(room), now, false)
  {
  }

  /** The row a send inserts; the database adds the creation time. */
  datatype NewMessage = NewMessage(roomCode: string, userId: string, text: string)

  /** What a send does: the row it inserts, the text left in the box, and whether an alert shows. */
  datatype Send = Send(insert: Option<NewMessage>, text: string, alerted: bool)

  /**
   * `sendMessage` (src/RoomChat.js:76-89): a blank text inserts nothing;
   * otherwise the text is sent as typed, the box is cleared when the insert
   * succeeds, and an alert shows when it fails, leaving the text in place.
   */
  function SendMessage(text: string, room: Room, user: User, insertOk: bool): (r: Send)
    ensures r.insert.None? <==> IsBlank(text)
    ensures r.insert.Some? ==> r.insert.value == NewMessage(room.code, user.id, text)
    ensures r.alerted <==> r.insert.Some? && !insertOk
    ensures r.text == if r.insert.Some? && insertOk then "" else text
  {
    TrimEmptyIffBlank(text);
    if Trim(text) == "" then Send(None, text, false)
    else Send(Some(NewMessage(room.code, user.id, text)), if insertOk then "" else text, !insertOk)
  }

  /** The stored row of an insert, stamped with its creation time. */
  function Stored(n: NewMessage, createdAt: int): Message {
    Message(n.roomCode, n.userId, n.text, createdAt)
  }

  /** A message is drawn as the reader's own (src/RoomChat.js:103) when its author is the signed-in user. */
  predicate IsMine(msg: Message, user: User) {
    msg.userId == user.id
  }

  /**
   * A sent message is drawn as "mine" for its sender and for no one with a
   * different id, and it lands in the sender's room.
   */
  lemma SentMessageIsMine(text: string, room: Room, user: User, reader: User, createdAt: int)
    requires !IsBlank(text)
    ensures
      var m := Stored(SendMessage(text, room, user, true).insert.value, createdAt);
      && m.roomCode == room.code
      && (IsMine(m, reader) <==> reader.id == user.id)
  {
  }

  /** A sent message shows for every reader of the room until two minutes after its creation. */
  lemma SentMessageShownForTwoMinutes(shown: seq<Message>, table: MessageTable, text: string, room: Room, user: User, createdAt: int, now: int)
    requires !IsBlank(text)
    ensures
      var m := Stored(SendMessage(text, room, user, true).insert.value, createdAt);
      m in FetchMessages(shown, table + [m], Some(room), now, false) <==> now <= createdAt + RetentionMs
  {
  }
}

=== FILE: library.dfy ===
/**
 * src/YouTubeLibrary.js: the shared YouTube library. Its room-facing part is
 * the host-gated "play in room" write; the rest is the blank-query guard of
 * the search box, which buttons an entry shows, and the local player.
 */
module Library {
  import opened Wrappers
  import opened Text
  import opened Rooms
  import opened Seqs
  import VideoSync
  import MiniPlayer

  /** A row of the `youtube_library` table. */
  datatype Entry = Entry(id: string, videoId: string, title: string, thumbnail: string, channelTitle: string, addedBy: string)

  /** `room && room.host_id === session.user.id` (src/YouTubeLibrary.js:19). */
  predicate IsLibraryHost(room: Option<Room>, user: User) {
    room.Some? && room.value.hostId == user.id
  }

  /** The library's host test is the room-wide host gate with a session present. */
  lemma LibraryHostIsRoomHost(room: Option<Room>, user: User)
    ensures IsLibraryHost(room, user) <==> Rooms.IsHost(room, Some(user))
  {
  }

  datatype PlayResult = Alert(message: string) | Publish(write: RoomWrite)

  /** The room columns "play in room" sets: the video, from the start, playing. */
  function PlayInRoomPatch(song: Entry): Patch {
    Patch(None, None, Some(song.videoId), Some(0.0), Some(true))
  }

  /**
   * `playInRoom` (src/YouTubeLibrary.js:89-104): an alert without a room or
   * for a non-host; otherwise the room row keyed by its code gets the video,
   * time 0 and playing.
   */
  function PlayInRoom(room: Option<Room>, user: User, song: Entry): (r: PlayResult)
    ensures room.None? ==> r == Alert("Join or create a room first!")
    ensures room.Some? && room.value.hostId != user.id ==> r == Alert("Only host can play songs in room!")
    ensures r.Publish? <==> IsLibraryHost(room, user)
    ensures r.Publish? ==>
      && r.write.code == room.value.code
      && r.write.patch.videoId == Some(song.videoId)
      && r.write.patch.playbackTime == Some(0.0)
      && r.write.patch.isPlaying == Some(true)
      && r.write.patch.songUrl.None? && r.write.patch.songName.None?
  {
    if room.None? then Alert("Join or create a room first!")
    else if !IsLibraryHost(room, user) then Alert("Only host can play songs in room!")
    else Publish(RoomWrite(room.value.code, PlayInRoomPatch(song)))
  }

  /**
   * A host's "play in room" reaches every ready listener: the mini player
   * shows the video, and one sync leaves the listener playing within a
   * second of the start.
   */
  lemma PlayInRoomReachesListeners(room: Room, host: User, listener: User, song: Entry, p: VideoSync.VideoPlayer)
    requires room.hostId == host.id && listener.id != host.id && song.videoId != ""
    ensures PlayInRoom(Some(room), host, song).Publish?
    ensures
      var row := ApplyPatch(room, PlayInRoom(Some(room), host, song).write.patch);
      var q := VideoSync.Perform(p, MiniPlayer.Sync(row, Some(listener), true, p.time));
      && MiniPlayer.View(row, Some(listener)) == Some(MiniPlayer.HostControllingNote)
      && q.playing
      && VideoSync.Abs(q.time) <= VideoSync.DriftLimit
  {
    var row := ApplyPatch(room, PlayInRoomPatch(song));
    VideoSync.SyncConverges(row, false, p);
  }

  datatype SearchResult = Rejected(message: string) | Request(query: string)

  /** `searchYouTube`'s guard (src/YouTubeLibrary.js:35): a blank query makes no request; others are sent as typed. */
  function Search(query: string): (r: SearchResult)
    ensures r.Rejected? <==> IsBlank(query)
    ensures r.Request? ==> r.query == query
  {
    TrimEmptyIffBlank(query);
    if Trim(query) == "" then Rejected("Enter search query!") else Request(query)
  }

  /** The "Room" button of an entry (src/YouTubeLibrary.js:179). */
  predicate ShowsRoomButton(room: Option<Room>, user: User) {
    room.Some? && IsLibraryHost(room, user)
  }

  /** The delete button of an entry (src/YouTubeLibrary.js:185). */
  predicate ShowsDeleteButton(entry: Entry, user: User) {
    entry.addedBy == user.id
  }

  /** The "Room" button is shown exactly when pressing it would publish. */
  lemma RoomButtonIffPublishes(room: Option<Room>, user: User, song: Entry)
    ensures ShowsRoomButton(room, user) <==> PlayInRoom(room, user, song).Publish?
  {
  }

  /** The library's own local player: video, title and thumbnail. */
  datatype NowPlaying = NowPlaying(videoId: string, title: string, thumbnail: string)

  /** `playSong` (src/YouTubeLibrary.js:106-110): sets only the local triple; it takes no room and writes none. */
  function PlaySong(song: Entry): (np: NowPlaying)
    ensures np.videoId == song.videoId && np.title == song.title && np.thumbnail == song.thumbnail
  {
    NowPlaying(song.videoId, song.title, song.thumbnail)
  }

  /**
   * Playing locally and playing in the room show the same video: after the
   * host's "play in room" the room's row holds the video the local player
   * would show.
   */
  lemma PlaySongMatchesRoom(room: Option<Room>, user: User, song: Entry)
    requires IsLibraryHost(room, user)
    ensures PlayInRoom(room, user, song).Publish?
    ensures ApplyPatch(room.value, PlayInRoom(room, user, song).write.patch).currentVideoId == Some(PlaySong(song).videoId)
  {
  }

  /**
   * `deleteFromLibrary` (src/YouTubeLibrary.js:79-87), reached only through
   * the button of line 185: the table afterwards. Nothing happens when the
   * button is not shown or the delete fails; otherwise the rows with the
   * entry's id are gone.
   */
  function DeleteFromLibrary(library: seq<Entry>, user: User, entry: Entry, failed: bool): (r: seq<Entry>)
    ensures !ShowsDeleteButton(entry, user) || failed ==> r == library
    ensures ShowsDeleteButton(entry, user) && !failed ==>
      forall e :: e in r <==> e in library && e.id != entry.id
    ensures ShowsDeleteButton(entry, user) && !failed ==>
      multiset(r) == multiset(Keep(library, (e: Entry) => e.id != entry.id))
  {
    if !ShowsDeleteButton(entry, user) || failed then library
    else Keep(library, (e: Entry) => e.id != entry.id)
  }

  /** Each library row has its own id. */
  predicate UniqueIds(library: seq<Entry>) {
    forall a, b :: a in library && b in library && a.id == b.id ==> a == b
  }

  /** A user's delete removes at most the pressed entry, and only one that user added. */
  lemma DeleteOnlyOwnEntry(library: seq<Entry>, user: User, entry: Entry, failed: bool)
    requires UniqueIds(library) && entry in library
    ensures forall e :: e in library && e !in DeleteFromLibrary(library, user, entry, failed) ==>
      e == entry && e.addedBy == user.id
  {
  }
}

=== FILE: members.dfy ===
/**
 * src/RoomMembers.js: room membership and presence. The `room_members`
 * table is a sequence of rows; times are milliseconds since the epoch, with
 * the current time `Date.now()` passed in as `now`.
 */
module Members {
  import opened Wrappers
  import opened Rooms
  import opened Seqs

  /** A row of `room_members`. `last_seen` is unset until the first heartbeat. */
  datatype Member = Member(roomCode: string, userId: string, email: string, joinedAt: int, lastSeen: Option<int>)

  type MemberTable = seq<Member>

  predicate IsRowOf(m: Member, code: string, userId: string) {
    m.roomCode == code && m.userId == userId
  }

  predicate HasRow(table: MemberTable, code: string, userId: string) {
    exists i :: 0 <= i < |table| && IsRowOf(table[i], code, userId)
  }

  /** No user has two rows in the same room. */
  predicate OneRowPerUser(table: MemberTable) {
    forall i, j :: 0 <= i < j < |table| ==>
      !(table[i].roomCode == table[j].roomCode && table[i].userId == table[j].userId)
  }

  /**
   * The row `joinRoom` inserts (src/RoomMembers.js:59-65): the caller's row in
   * the room, joined now, never seen, so it reads as offline until the
   * caller's first heartbeat.
   */
  function NewMember(room: Room, user: User, now: int): (m: Member)
    ensures IsRowOf(m, room.code, user.id) && m.email == user.email && m.joinedAt == now
    ensures now >= OnlineWindowMs ==> !IsOnline(m.lastSeen, now)
  {
    Member(room.code, user.id, user.email, now, None)
  }

  /**
   * The join effect (src/RoomMembers.js:47-69): nothing without a room and a
   * session; otherwise insert the caller's row unless one exists already.
   */
  function Join(table: MemberTable, room: Option<Room>, session: Option<User>, now: int): (r: MemberTable)
    ensures room.None? || session.None? ==> r == table
    ensures room.Some? && session.Some? ==>
      if HasRow(table, room.value.code, session.value.id) then r == table
      else r == table + [NewMember(room.value, session.value, now)]
  {
    if room.None? || session.None? then table
    else if HasRow(table, room.value.code, session.value.id) then table
    else table + [NewMember(room.value, session.value, now)]
  }

  /** Joining registers the caller exactly once: repeated joins add no second row. */
  lemma JoinKeepsOneRowPerUser(table: MemberTable, room: Option<Room>, session: Option<User>, now: int)
    requires OneRowPerUser(table)
    ensures OneRowPerUser(Join(table, room, session, now))
    ensures room.Some? && session.Some? ==> HasRow(Join(table, room, session, now), room.value.code, session.value.id)
  {
    if room.Some? && session.Some? && !HasRow(table, room.value.code, session.value.id) {
      var r := Join(table, room, session, now);
      assert IsRowOf(r[|table|], room.value.code, session.value.id);
    }
  }

  /** A second join, at any later time, changes nothing. */
  lemma JoinIdempotent(table: MemberTable, room: Option<Room>, session: Option<User>, now: int, later: int)
    ensures Join(Join(table, room, session, now), room, session, later) == Join(table, room, session, now)
  {
    if room.Some? && session.Some? && !HasRow(table, room.value.code, session.value.id) {
      var r := Join(table, room, session, now);
      assert IsRowOf(r[|table|], room.value.code, session.value.id);
    }
  }

  /** Whether a heartbeat writes this row: a room and a session, and the caller's own row. */
  predicate HeartbeatTargets(m: Member, room: Option<Room>, session: Option<User>) {
    room.Some? && session.Some? && IsRowOf(m, room.value.code, session.value.id)
  }

  /** One heartbeat tick (src/RoomMembers.js:72-84): `last_seen := now` on the caller's rows only. */
  function Heartbeat(table: MemberTable, room: Option<Room>, session: Option<User>, now: int): (r: MemberTable)
    ensures |r| == |table|
    ensures forall i :: 0 <= i < |table| ==>
      r[i] == if HeartbeatTargets(table[i], room, session) then table[i].(lastSeen := Some(now)) else table[i]
  {
    seq(|table|, i requires 0 <= i < |table| =>
      if HeartbeatTargets(table[i], room, session) then table[i].(lastSeen := Some(now)) else table[i])
  }

  const OnlineWindowMs: int := 20000

  /** `new Date(last_seen).getTime()`; an unset column reads as the epoch. */
  function LastSeenMs(lastSeen: Option<int>): int {
    lastSeen.GetOr(0)
  }

  /** `isOnline` (src/RoomMembers.js:87-90): seen less than 20 seconds ago, strictly. */
  predicate IsOnline(lastSeen: Option<int>, now: int)
    ensures lastSeen.None? ==> (IsOnline(lastSeen, now) <==> now < OnlineWindowMs)
    ensures IsOnline(lastSeen, now) && lastSeen.Some? ==> now < lastSeen.value + OnlineWindowMs
  {
    now - LastSeenMs(lastSeen) < OnlineWindowMs
  }

  /**
   * After a heartbeat at `beat`, the caller shows online at `now` exactly
   * when `now` is less than 20 s after it, and nobody else's status moves.
   */
  lemma HeartbeatPresence(table: MemberTable, room: Option<Room>, session: Option<User>, beat: int, now: int, i: nat)
    requires i < |table|
    ensures HeartbeatTargets(table[i], room, session) ==>
      (IsOnline(Heartbeat(table, room, session, beat)[i].lastSeen, now) <==> now < beat + OnlineWindowMs)
    ensures !HeartbeatTargets(table[i], room, session) ==>
      (IsOnline(Heartbeat(table, room, session, beat)[i].lastSeen, now) <==> IsOnline(table[i].lastSeen, now))
  {
  }

  /** A heartbeat does not add or remove rows, so it keeps one row per user. */
  lemma HeartbeatKeepsOneRowPerUser(table: MemberTable, room: Option<Room>, session: Option<User>, now: int)
    requires OneRowPerUser(table)
    ensures OneRowPerUser(Heartbeat(table, room, session, now))
  {
    var r := Heartbeat(table, room, session, now);
    assert forall i :: 0 <= i < |table| ==> r[i].roomCode == table[i].roomCode && r[i].userId == table[i].userId;
  }

  /**
   * `fetchMembers` (src/RoomMembers.js:7-17): without a room, or when the
   * query fails, the list stays; otherwise it becomes the room's rows in
   * ascending `joined_at` order.
   */
  function FetchMembers(shown: MemberTable, table: MemberTable, room: Option<Room>, failed: bool): (r: MemberTable)
    ensures room.None? || failed ==> r == shown
    ensures room.Some? && !failed ==>
      && SortedBy(r, (m: Member) => m.joinedAt)
      && multiset(r) == multiset(Keep(table, (m: Member) => m.roomCode == room.value.code))
      && (forall m :: m in r <==> m in table && m.roomCode == room.value.code)
  {
    if room.None? || failed then shown
    else
      var code := room.value.code;
      var kept := Keep(table, (m: Member) => m.roomCode == code);
      var r := SortBy(kept, (m: Member) => m.joinedAt);
      SameElements(r, kept);
      r
  }

  /** After joining, the caller appears in the room's member list. */
  lemma JoinedUserListed(table: MemberTable, room: Room, user: User, now: int)
    requires OneRowPerUser(table)
    ensures
      var after := Join(table, Some(room), Some(user), now);
      var listed := FetchMembers([], after, Some(room), false);
      exists m :: m in listed && m.userId == user.id
  {
    JoinKeepsOneRowPerUser(table, Some(room), Some(user), now);
    var after := Join(table, Some(room), Some(user), now);
    var i :| 0 <= i < |after| && IsRowOf(after[i], room.code, user.id);
    assert after[i] in FetchMembers([], after, Some(room), false);
  }
}

=== FILE: mini_player.dfy ===
/**
 * src/YouTubeMiniPlayer.js: the compact room player. It computes the host
 * flag with null checks on the session and hides itself when the room has
 * no video; sync, heartbeat and play/pause follow the shared rules.
 */
module MiniPlayer {
  import opened Wrappers
  import opened Rooms
  import opened VideoSync

  /** `room && session && room.host_id === session.user.id` (src/YouTubeMiniPlayer.js:12). */
  predicate IsMiniHost(room: Room, session: Option<User>) {
    Rooms.IsHost(Some(room), session)
  }

  /**
   * The listener effect: no command without a video, before the player is
   * ready, or for the host; otherwise a seek iff the drift exceeds one
   * second, then the room's play flag.
   */
  function Sync(room: Room, session: Option<User>, ready: bool, localTime: real): (ops: seq<PlayerOp>)
    ensures ops != [] <==> Present(room.currentVideoId) && ready && !IsMiniHost(room, session)
    ensures ops != [] ==>
      && ops[|ops| - 1] == (if room.isPlaying then PlayVideo else PauseVideo)
      && (SeekTo(ServerTime(room)) in ops <==> Abs(localTime - ServerTime(room)) > DriftLimit)
  {
    ListenerSync(room, ready, IsMiniHost(room, session), localTime)
  }

  /** One tick of the host's heartbeat interval. */
  function Heartbeat(room: Room, session: Option<User>, ready: bool, time: real, state: int): (w: Option<RoomWrite>)
    ensures w.Some? <==> Present(room.currentVideoId) && ready && IsMiniHost(room, session)
    ensures w.Some? ==> w.value == RoomWrite(room.code, Patch(None, None, None, Some(time), Some(state == Playing)))
  {
    HeartbeatTick(room, ready, IsMiniHost(room, session), time, state)
  }

  /** The host's play/pause button. */
  function PlayPause(room: Room, session: Option<User>, ready: bool, state: int): (r: (seq<PlayerOp>, Option<RoomWrite>))
    ensures !IsMiniHost(room, session) || !ready ==> r == ([], None)
    ensures IsMiniHost(room, session) && ready ==>
      && r.0 == [if state == Playing then PauseVideo else PlayVideo]
      && r.1 == Some(RoomWrite(room.code, Patch(None, None, None, None, Some(state != Playing))))
  {
    TogglePlayPause(room, IsMiniHost(room, session), ready, state)
  }

  /** The centre of the mini player: the host's button (showing pause while playing) or a note. */
  datatype Controls = HostButton(showsPause: bool) | HostControllingNote

  /** The rendered player, or nothing when no video is selected (src/YouTubeMiniPlayer.js:114). */
  function View(room: Room, session: Option<User>): (v: Option<Controls>)
    ensures v.None? <==> !Present(room.currentVideoId)
    ensures v.Some? ==> (v.value.HostButton? <==> IsMiniHost(room, session))
    ensures v.Some? && v.value.HostButton? ==> v.value.showsPause == room.isPlaying
  {
    if !Present(room.currentVideoId) then None
    else if IsMiniHost(room, session) then Some(HostButton(room.isPlaying))
    else Some(HostControllingNote)
  }
}

=== FILE: playlist_view.dfy ===
/**
 * The playlist panel (src/Playlist.js): a case-insensitive search box over
 * the song names, the list of matching songs, the highlight on the current
 * song, the click that selects a song, and the delete button.
 */
module PlaylistView {
  import opened Text
  import opened Seqs
  import opened Transport

  /** A song is listed when its lower-cased name contains the lower-cased query. */
  predicate Matches(song: Song, query: string) {
    Includes(Lower(song.name), Lower(query))
  }

  function Matcher(query: string): Song -> bool {
    (song: Song) => Matches(song, query)
  }

  /** `filteredSongs` (src/Playlist.js:11-13): the matching songs, in playlist order. */
  function Filter(songs: seq<Song>, query: string): (r: seq<Song>)
    ensures |r| <= |songs|
    ensures forall s :: s in r <==> s in songs && Matches(s, query)
  {
    Keep(songs, Matcher(query))
  }

  /** Where each listed row sits in the full playlist. */
  function ListedPositions(songs: seq<Song>, query: string): (r: seq<nat>)
    ensures |r| == |Filter(songs, query)|
    ensures forall k :: 0 <= k < |r| ==> r[k] < |songs| && Filter(songs, query)[k] == songs[r[k]]
    ensures forall k, l :: 0 <= k < l < |r| ==> r[k] < r[l]
  {
    KeepAtPositions(songs, Matcher(query));
    Positions(songs, Matcher(query))
  }

  /** The empty query matches every name, so the list shows the whole playlist. */
  lemma EmptyQueryListsAll(songs: seq<Song>)
    ensures Filter(songs, "") == songs
  {
    forall i | 0 <= i < |songs|
      ensures Matcher("")(songs[i])
    {
      assert Lower("") <= Lower(songs[i].name);
    }
    KeepAll(songs, Matcher(""));
  }

  /** The list does not depend on the letter case of the query. */
  lemma FilterIgnoresCase(songs: seq<Song>, query: string)
    ensures Filter(songs, Upper(query)) == Filter(songs, query)
    ensures Filter(songs, Lower(query)) == Filter(songs, query)
  {
    LowerIgnoresCase(query);
    KeepSame(songs, Matcher(Upper(query)), Matcher(query));
    KeepSame(songs, Matcher(Lower(query)), Matcher(query));
  }

  /** A song is listed exactly when the query occurs somewhere in its name, ignoring case. */
  lemma ListedIffOccurs(songs: seq<Song>, query: string, song: Song)
    ensures song in Filter(songs, query) <==>
      song in songs && exists i :: OccursAt(Lower(song.name), Lower(query), i)
  {
    IncludesIffOccurs(Lower(song.name), Lower(query));
  }

  /** Filtering again with the same query changes nothing. */
  lemma FilterIdempotent(songs: seq<Song>, query: string)
    ensures Filter(Filter(songs, query), query) == Filter(songs, query)
  {
    KeepKeep(songs, Matcher(query), Matcher(query));
  }

  /**
   * Clicking row `k` as written (src/Playlist.js:39): `setCurrentIndex(k)`,
   * where `k` counts rows of the filtered list.
   */
  function ClickAsWritten(p: Player, k: nat): (q: Player)
    ensures q.currentIndex == k && q.isPlaying == p.isPlaying && SameSettings(p, q)
  {
    p.(currentIndex := k)
  }

  /** The highlight as written (src/Playlist.js:34): row `k` is marked when `k` equals `currentIndex`. */
  predicate HighlightedAsWritten(currentIndex: nat, k: nat) {
    k == currentIndex
  }

  /** Without a filter the row number is the playlist index, so the click plays the clicked song. */
  lemma ClickAsWrittenAgreesUnfiltered(p: Player, k: nat)
    requires k < |Filter(p.songs, "")|
    ensures ClickAsWritten(p, k).currentIndex < |p.songs|
    ensures p.songs[ClickAsWritten(p, k).currentIndex] == Filter(p.songs, "")[k]
  {
    EmptyQueryListsAll(p.songs);
  }

  /**
   * With a filter the click selects the wrong song: searching "beta" in
   * [Alpha, Beta] lists only Beta, and clicking it selects Alpha. With Beta
   * playing, the Beta row is not highlighted.
   */
  lemma ClickAsWrittenPlaysWrongSong(p: Player)
    requires p.songs == [Song("1", "u", "alpha.mp3", "Alpha", 1), Song("2", "u", "beta.mp3", "Beta", 2)]
    ensures Filter(p.songs, "beta") == [p.songs[1]]
    ensures p.songs[ClickAsWritten(p, 0).currentIndex] != Filter(p.songs, "beta")[0]
    ensures !HighlightedAsWritten(1, 0)
  {
    var alpha := p.songs[0];
    var beta := p.songs[1];
    assert Lower("beta") == "beta";
    assert Lower(beta.name) == "beta";
    assert Lower(alpha.name) == "alpha";
    assert Matches(beta, "beta") by {
      assert Lower("beta") <= Lower(beta.name);
    }
    assert !Matches(alpha, "beta") by {
      assert !Includes("a", "beta") by { assert "a"[1..] == ""; }
      assert !Includes("ha", "beta") by { assert "ha"[1..] == "a"; }
      assert !Includes("pha", "beta") by { assert "pha"[1..] == "ha"; }
      assert !Includes("lpha", "beta") by { assert "lpha"[1..] == "pha"; assert "beta"[0] != "lpha"[0]; }
      assert "alpha"[1..] == "lpha";
    }
    assert p.songs == [alpha] + [beta];
    KeepAppend([alpha], [beta], Matcher("beta"));
    assert Keep([alpha], Matcher("beta")) == [] by {
      assert [alpha][..0] == [];
    }
    assert Keep([beta], Matcher("beta")) == [beta] by {
      assert [beta][..0] == [];
    }
  }

  /** Clicking row `k`, corrected: select the playlist index of the song shown in that row. */
  function Click(p: Player, query: string, k: nat): (q: Player)
    requires k < |Filter(p.songs, query)|
    ensures q.currentIndex < |p.songs| && p.songs[q.currentIndex] == Filter(p.songs, query)[k]
    ensures ValidIndex(q) && q.isPlaying == p.isPlaying && SameSettings(p, q)
  {
    p.(currentIndex := ListedPositions(p.songs, query)[k])
  }

  /** The highlight, corrected: row `k` is marked when it shows the song at `currentIndex`. */
  predicate Highlighted(songs: seq<Song>, query: string, currentIndex: nat, k: nat)
    requires k < |Filter(songs, query)|
  {
    ListedPositions(songs, query)[k] == currentIndex
  }

  /** After a corrected click on row `k`, row `k` and no other row is highlighted. */
  lemma ClickHighlightsClickedRow(p: Player, query: string, k: nat, l: nat)
    requires k < |Filter(p.songs, query)| && l < |Filter(p.songs, query)|
    ensures Highlighted(p.songs, query, Click(p, query, k).currentIndex, l) <==> l == k
  {
    var pos := ListedPositions(p.songs, query);
    if l < k {
      assert pos[l] < pos[k];
    } else if k < l {
      assert pos[k] < pos[l];
    }
  }

  /** At most one row is highlighted, and it is highlighted exactly when the current song is listed. */
  lemma HighlightIffListed(songs: seq<Song>, query: string, currentIndex: nat)
    requires currentIndex < |songs|
    ensures (exists k :: 0 <= k < |Filter(songs, query)| && Highlighted(songs, query, currentIndex, k))
        <==> Matches(songs[currentIndex], query)
  {
    var pos := ListedPositions(songs, query);
    assert Matcher(query)(songs[currentIndex]) <==> currentIndex in Positions(songs, Matcher(query));
    if Matches(songs[currentIndex], query) {
      var k :| 0 <= k < |pos| && pos[k] == currentIndex;
      assert Highlighted(songs, query, currentIndex, k);
    }
  }

  /** The delete button of row `k` (src/Playlist.js:44) passes the song record shown in that row. */
  function DeleteTarget(songs: seq<Song>, query: string, k: nat): (s: Song)
    requires k < |Filter(songs, query)|
    ensures s in songs && Matches(s, query)
    ensures exists i :: 0 <= i < |songs| && songs[i] == s && ListedPositions(songs, query)[k] == i
  {
    var pos := ListedPositions(songs, query);
    assert songs[pos[k]] == Filter(songs, query)[k];
    Filter(songs, query)[k]
  }
}

=== FILE: room_session.dfy ===
/**
 * Creating and joining a room (src/Room.js). The `rooms` table is a map
 * from room code to row; a code is unique in it. The random part of room
 * creation, `Math.random().toString(36)`, is the sequence of base-36 digits
 * after the point of the random number.
 */
module RoomSession {
  import opened Wrappers
  import opened Text
  import opened Rooms

  /** The `rooms` table, keyed by `room_code`. */
  type RoomTable = map<string, Room>

  /** The result of a create or join: the table afterwards, the room the client holds, the alert shown. */
  datatype Outcome = Outcome(rooms: RoomTable, room: Option<Room>, alert: Option<string>)

  const CodeLength: nat := 6

  /** A lower-case base-36 digit, as `Number.prototype.toString(36)` writes it. */
  function Base36Char(d: nat): (c: char)
    requires d < 36
  {
    if d < 10 then ('0' as int + d) as char else ('a' as int + d - 10) as char
  }

  /** A character a room code may contain: a digit or an upper-case ASCII letter. */
  predicate IsCodeChar(c: char) {
    '0' <= c <= '9' || 'A' <= c <= 'Z'
  }

  /** The digit value of a code character. */
  function CodeCharValue(c: char): nat
    requires IsCodeChar(c)
  {
    if '0' <= c <= '9' then c as int - '0' as int else c as int - 'A' as int + 10
  }

  /** `x.toString(36)` of a number in [0, 1) whose digits after the point are `digits`. */
  function ToBase36(digits: seq<nat>): string
    requires forall i :: 0 <= i < |digits| ==> digits[i] < 36
  {
    if |digits| == 0 then "0"
    else "0." + seq(|digits|, i requires 0 <= i < |digits| => Base36Char(digits[i]))
  }

  /** `s.substring(start, end)`: both bounds clamped to the string, swapped if reversed. */
  function Substring(s: string, start: int, end: int): (r: string)
    ensures |r| <= |s|
    ensures 0 <= start <= end <= |s| ==> r == s[start..end]
    ensures 0 <= end <= start <= |s| ==> r == s[end..start]
  {
    var a := if start < 0 then 0 else if start > |s| then |s| else start;
    var b := if end < 0 then 0 else if end > |s| then |s| else end;
    if a <= b then s[a..b] else s[b..a]
  }

  /**
   * The bounds are symmetric, and a bound outside the string acts as the
   * nearest end of it.
   */
  lemma SubstringClamps(s: string, start: int, end: int)
    ensures Substring(s, start, end) == Substring(s, end, start)
    ensures start < 0 ==> Substring(s, start, end) == Substring(s, 0, end)
    ensures start > |s| ==> Substring(s, start, end) == Substring(s, |s|, end)
    ensures end < 0 ==> Substring(s, start, end) == Substring(s, start, 0)
    ensures end > |s| ==> Substring(s, start, end) == Substring(s, start, |s|)
  {
  }

  /**
   * `Math.random().toString(36).substring(2, 8).toUpperCase()` (src/Room.js:8):
   * at most six characters, the first digits after the point, upper-cased.
   */
  function GenerateCode(digits: seq<nat>): (code: string)
    requires forall i :: 0 <= i < |digits| ==> digits[i] < 36
    ensures |code| <= CodeLength
    ensures |code| == if |digits| < CodeLength then |digits| else CodeLength
    ensures forall i :: 0 <= i < |code| ==> IsCodeChar(code[i]) && CodeCharValue(code[i]) == digits[i]
  {
    var text := ToBase36(digits);
    var cut := Substring(text, 2, 8);
    assert |digits| > 0 ==> cut == text[2..if |text| < 8 then |text| else 8];
    Upper(cut)
  }

  /** The row `createRoom` inserts (src/Room.js:13-18): hosted by the creator, at 0, paused, with no track. */
  function NewRoom(code: string, host: User): (r: Room)
    ensures r.code == code && IsHost(Some(r), Some(host))
    ensures !r.isPlaying && ServerTime(r) == 0.0
    ensures !Present(r.currentSongUrl) && !Present(r.currentVideoId)
  {
    Room(code, host.id, None, None, None, Some(0.0), false)
  }

  /**
   * `createRoom`: inserts the new row and holds it. The insert fails when the
   * code is taken or the store reports an error; then an alert is shown and
   * no room is held.
   */
  function CreateRoom(rooms: RoomTable, host: User, code: string, storeError: bool): (o: Outcome)
    ensures storeError || code in rooms ==> o.rooms == rooms && o.room == None && o.alert.Some?
    ensures !storeError && code !in rooms ==>
      && o.room.Some?
      && o.rooms == rooms[code := o.room.value]
      && o.alert == None
      && o.room.value.code == code
      && IsHost(o.room, Some(host))
      && !o.room.value.isPlaying
      && ServerTime(o.room.value) == 0.0
      && !Present(o.room.value.currentSongUrl) && !Present(o.room.value.currentVideoId)
  {
    if storeError || code in rooms then Outcome(rooms, None, Some("duplicate or rejected room"))
    else Outcome(rooms[code := NewRoom(code, host)], Some(NewRoom(code, host)), None)
  }

  /**
   * The join box keeps its text upper-cased as it is typed (src/Room.js:54):
   * same length, no lower-case letter left, every other character kept.
   */
  function InputCode(typed: string): (r: string)
    ensures |r| == |typed|
    ensures forall i :: 0 <= i < |r| ==> !('a' <= r[i] <= 'z')
    ensures forall i :: 0 <= i < |r| && !('a' <= typed[i] <= 'z') ==> r[i] == typed[i]
  {
    Upper(typed)
  }

  /**
   * `joinRoom` (src/Room.js:28-38): looks the code up. A query error, which
   * includes an unknown code, shows "Room not found!" and holds no room; a
   * successful lookup holds the stored row. `failed` is an error of the
   * store itself.
   */
  function JoinRoom(rooms: RoomTable, roomCode: string, failed: bool): (o: Outcome)
    ensures o.rooms == rooms
    ensures o.room.Some? <==> roomCode in rooms && !failed
    ensures o.room.Some? ==> o.room.value == rooms[roomCode] && o.alert == None
    ensures o.room.None? ==> o.alert == Some("Room not found!")
  {
    if roomCode in rooms && !failed then Outcome(rooms, Some(rooms[roomCode]), None)
    else Outcome(rooms, None, Some("Room not found!"))
  }

  /** Letter case in the typed code does not matter: any spelling finds what the upper-case one finds. */
  lemma JoinIgnoresCase(rooms: RoomTable, typed: string, failed: bool)
    ensures JoinRoom(rooms, InputCode(Lower(typed)), failed) == JoinRoom(rooms, InputCode(typed), failed)
    ensures JoinRoom(rooms, InputCode(Upper(typed)), failed) == JoinRoom(rooms, InputCode(typed), failed)
  {
    UpperIgnoresCase(typed);
  }

  /** A generated code is already upper case, so upper-casing it again changes nothing. */
  lemma GeneratedCodeIsNormal(digits: seq<nat>)
    requires forall i :: 0 <= i < |digits| ==> digits[i] < 36
    ensures InputCode(GenerateCode(digits)) == GenerateCode(digits)
  {
    var code := GenerateCode(digits);
    assert forall i :: 0 <= i < |code| ==> UpperChar(code[i]) == code[i];
  }

  /**
   * A room created with a generated code is found by anyone who types that
   * code, in any letter case, into the join box.
   */
  lemma CreateThenJoin(rooms: RoomTable, host: User, digits: seq<nat>, typed: string)
    requires forall i :: 0 <= i < |digits| ==> digits[i] < 36
    requires GenerateCode(digits) !in rooms
    requires Upper(typed) == GenerateCode(digits)
    ensures
      var created := CreateRoom(rooms, host, GenerateCode(digits), false);
      JoinRoom(created.rooms, InputCode(typed), false).room == created.room
  {
  }
}

=== FILE: room_video_player.dfy ===
/**
 * src/RoomYouTubePlayer.js: the full-size room player. It is mounted with a
 * room and a signed-in session, so its host flag is a plain comparison; the
 * sync, heartbeat and play/pause rules are the same as the mini player's.
 */
module RoomVideoPlayer {
  import opened Wrappers
  import opened Rooms
  import opened VideoSync
  import MiniPlayer

  /** `room.host_id === session.user.id` (src/RoomYouTubePlayer.js:11). */
  predicate IsRoomHost(room: Room, user: User) {
    room.hostId == user.id
  }

  /** The listener effect, skipped when not ready, without a video, or for the host. */
  function Sync(room: Room, user: User, ready: bool, localTime: real): (ops: seq<PlayerOp>)
    ensures ops != [] <==> ready && Present(room.currentVideoId) && !IsRoomHost(room, user)
    ensures ops != [] ==>
      && ops[|ops| - 1] == (if room.isPlaying then PlayVideo else PauseVideo)
      && (SeekTo(ServerTime(room)) in ops <==> Abs(localTime - ServerTime(room)) > DriftLimit)
  {
    ListenerSync(room, ready, IsRoomHost(room, user), localTime)
  }

  /** One tick of the host's heartbeat interval. */
  function Heartbeat(room: Room, user: User, ready: bool, time: real, state: int): (w: Option<RoomWrite>)
    ensures w.Some? <==> ready && Present(room.currentVideoId) && IsRoomHost(room, user)
    ensures w.Some? ==> w.value == RoomWrite(room.code, Patch(None, None, None, Some(time), Some(state == Playing)))
  {
    HeartbeatTick(room, ready, IsRoomHost(room, user), time, state)
  }

  /** The host's play/pause button. */
  function PlayPause(room: Room, user: User, ready: bool, state: int): (r: (seq<PlayerOp>, Option<RoomWrite>))
    ensures !IsRoomHost(room, user) || !ready ==> r == ([], None)
    ensures IsRoomHost(room, user) && ready ==>
      && r.0 == [if state == Playing then PauseVideo else PlayVideo]
      && r.1 == Some(RoomWrite(room.code, Patch(None, None, None, None, Some(state != Playing))))
  {
    TogglePlayPause(room, IsRoomHost(room, user), ready, state)
  }

  /** What the panel shows: a "no song yet" message, or the player with its host button and listener hint. */
  datatype Panel = NoVideoMessage | PlayerPanel(showsPlayPause: bool, showsAutoplayHint: bool)

  function View(room: Room, user: User): (v: Panel)
    ensures v.NoVideoMessage? <==> !Present(room.currentVideoId)
    ensures v.PlayerPanel? ==> (v.showsPlayPause <==> IsRoomHost(room, user))
    ensures v.PlayerPanel? ==> (v.showsAutoplayHint <==> !IsRoomHost(room, user))
  {
    if !Present(room.currentVideoId) then NoVideoMessage
    else PlayerPanel(IsRoomHost(room, user), !IsRoomHost(room, user))
  }

  /**
   * With a session present the two players agree: the same host flag, the
   * same listener commands, the same heartbeat write and the same button.
   */
  lemma AgreesWithMiniPlayer(room: Room, user: User, ready: bool, localTime: real, time: real, state: int)
    ensures IsRoomHost(room, user) == MiniPlayer.IsMiniHost(room, Some(user))
    ensures Sync(room, user, ready, localTime) == MiniPlayer.Sync(room, Some(user), ready, localTime)
    ensures Heartbeat(room, user, ready, time, state) == MiniPlayer.Heartbeat(room, Some(user), ready, time, state)
    ensures PlayPause(room, user, ready, state) == MiniPlayer.PlayPause(room, Some(user), ready, state)
  {
  }

  /**
   * The panel matches the player's behaviour: listeners see the autoplay
   * hint exactly when a ready player would sync them, and the host sees
   * play/pause exactly when a ready player would send heartbeats.
   */
  lemma PanelMatchesBehaviour(room: Room, user: User, localTime: real, time: real, state: int)
    ensures (View(room, user).PlayerPanel? && View(room, user).showsAutoplayHint)
        <==> Sync(room, user, true, localTime) != []
    ensures (View(room, user).PlayerPanel? && View(room, user).showsPlayPause)
        <==> Heartbeat(room, user, true, time, state).Some?
  {
  }
}

=== FILE: rooms.dfy ===
/**
 * The shared `rooms` row and the host gate. Every component that mutates a
 * room's playback state goes through the same rule: only the user whose id
 * equals the room's `host_id` writes, and a write is an update of some
 * columns of the row selected by `room_code`.
 */
module Rooms {
  import opened Wrappers

  /** The signed-in user, as the session provider exposes it. */
  datatype User = User(id: string, email: string)

  /**
   * A row of the `rooms` table. Columns that the code reads with a
   * JavaScript truthiness test are options; `None` stands for `null`.
   */
  datatype Room = Room(
    code: string,
    hostId: string,
    currentSongUrl: Option<string>,
    currentSongName: Option<string>,
    currentVideoId: Option<string>,
    playbackTime: Option<real>,
    isPlaying: bool)

  /** The columns an update sets; `None` leaves a column as it was. */
  datatype Patch = Patch(
    songUrl: Option<string>,
    songName: Option<string>,
    videoId: Option<string>,
    playbackTime: Option<real>,
    isPlaying: Option<bool>)

  /** `supabase.from("rooms").update(patch).eq("room_code", code)`. */
  datatype RoomWrite = RoomWrite(code: string, patch: Patch)

  /** A string column is truthy when it is set and not the empty string. */
  predicate Present(column: Option<string>) {
    column.Some? && column.value != ""
  }

  /** `room.playback_time || 0`: the authoritative position, 0 when unset. */
  function ServerTime(room: Room): (t: real)
    ensures room.playbackTime.Some? ==> t == room.playbackTime.value
    ensures room.playbackTime.None? ==> t == 0.0
  {
    room.playbackTime.GetOr(0.0)
  }

  /** `room && session && room.host_id === session.user.id` (src/App.js, src/YouTubeMiniPlayer.js). */
  predicate IsHost(room: Option<Room>, session: Option<User>) {
    room.Some? && session.Some? && room.value.hostId == session.value.id
  }

  /** Host equality is against one column, so no room has two hosts. */
  lemma AtMostOneHost(room: Room, a: User, b: User)
    requires IsHost(Some(room), Some(a)) && IsHost(Some(room), Some(b))
    ensures a.id == b.id
  {
  }

  /**
   * `updateRoom(updates)`: the write is issued only when a room is set and
   * the caller is its host, and then it targets that room's row.
   */
  function UpdateRoom(room: Option<Room>, session: Option<User>, patch: Patch): (w: Option<RoomWrite>)
    ensures w.Some? <==> room.Some? && session.Some? && room.value.hostId == session.value.id
    ensures w.Some? ==> w.value.code == room.value.code && w.value.patch == patch
  {
    if room.Some? && IsHost(room, session) then Some(RoomWrite(room.value.code, patch)) else None
  }

  /** What the database does with an update: the patched columns change, the rest stay. */
  function ApplyPatch(room: Room, patch: Patch): (r: Room)
    ensures r.code == room.code && r.hostId == room.hostId
    ensures patch.songUrl.Some? ==> r.currentSongUrl == patch.songUrl
    ensures patch.songUrl.None? ==> r.currentSongUrl == room.currentSongUrl
    ensures patch.songName.Some? ==> r.currentSongName == patch.songName
    ensures patch.songName.None? ==> r.currentSongName == room.currentSongName
    ensures patch.videoId.Some? ==> r.currentVideoId == patch.videoId
    ensures patch.videoId.None? ==> r.currentVideoId == room.currentVideoId
    ensures patch.playbackTime.Some? ==> r.playbackTime == patch.playbackTime
    ensures patch.playbackTime.None? ==> r.playbackTime == room.playbackTime
    ensures r.isPlaying == patch.isPlaying.GetOr(room.isPlaying)
  {
    Room(
      room.code,
      room.hostId,
      if patch.songUrl.Some? then patch.songUrl else room.currentSongUrl,
      if patch.songName.Some? then patch.songName else room.currentSongName,
      if patch.videoId.Some? then patch.videoId else room.currentVideoId,
      if patch.playbackTime.Some? then patch.playbackTime else room.playbackTime,
      patch.isPlaying.GetOr(room.isPlaying))
  }

  /** Applying the same update twice leaves the row as applying it once. */
  lemma ApplyPatchIdempotent(room: Room, patch: Patch)
    ensures ApplyPatch(ApplyPatch(room, patch), patch) == ApplyPatch(room, patch)
  {
  }
}

=== FILE: seqs.dfy ===
/**
 * Sequence operations behind the components' queries: JavaScript's
 * `Array.prototype.filter` (and the positions it keeps), and ordering rows
 * by a numeric column, as a query's `.order(column, { ascending: true })` does.
 */
module Seqs {

  /** `s.filter(p)`: the elements satisfying `p`, in their original order. */
  function Keep<T(!new)>(s: seq<T>, p: T -> bool): (r: seq<T>)
    ensures |r| <= |s|
    ensures forall x :: x in r <==> x in s && p(x)
    decreases |s|
  {
    if |s| == 0 then []
    else
      var init := s[..|s| - 1];
      assert s == init + [s[|s| - 1]];
      Keep(init, p) + (if p(s[|s| - 1]) then [s[|s| - 1]] else [])
  }

  /** The positions in `s` whose elements `p` keeps, in increasing order. */
  function Positions<T(!new)>(s: seq<T>, p: T -> bool): (r: seq<nat>)
    ensures forall k :: 0 <= k < |r| ==> r[k] < |s|
    ensures forall k, l :: 0 <= k < l < |r| ==> r[k] < r[l]
    ensures forall i :: 0 <= i < |s| ==> (p(s[i]) <==> i in r)
    decreases |s|
  {
    if |s| == 0 then []
    else
      var init := s[..|s| - 1];
      var prev := Positions(init, p);
      assert forall i :: 0 <= i < |init| ==> s[i] == init[i];
      prev + (if p(s[|s| - 1]) then [|s| - 1] else [])
  }

  /** The k-th kept element is the element at the k-th kept position. */
  lemma {:induction false} KeepAtPositions<T(!new)>(s: seq<T>, p: T -> bool)
    ensures |Positions(s, p)| == |Keep(s, p)|
    ensures forall k :: 0 <= k < |Keep(s, p)| ==> Keep(s, p)[k] == s[Positions(s, p)[k]]
    decreases |s|
  {
    if |s| > 0 {
      var init := s[..|s| - 1];
      KeepAtPositions(init, p);
      assert forall i :: 0 <= i < |init| ==> s[i] == init[i];
    }
  }

  /** Filtering keeps every kept element as often as it occurs and drops the rest. */
  lemma {:induction false} KeepCounts<T(!new)>(s: seq<T>, p: T -> bool, x: T)
    ensures multiset(Keep(s, p))[x] == if p(x) then multiset(s)[x] else 0
    decreases |s|
  {
    if |s| > 0 {
      var init := s[..|s| - 1];
      assert s == init + [s[|s| - 1]];
      KeepCounts(init, p, x);
    }
  }

  /** Filtering with `q` after `p` is filtering with `q` alone when `q` implies `p`. */
  lemma {:induction false} KeepKeep<T(!new)>(s: seq<T>, p: T -> bool, q: T -> bool)
    requires forall x :: q(x) ==> p(x)
    ensures Keep(Keep(s, p), q) == Keep(s, q)
    decreases |s|
  {
    if |s| > 0 {
      var init := s[..|s| - 1];
      var last := s[|s| - 1];
      KeepKeep(init, p, q);
      var tail := if p(last) then [last] else [];
      KeepAppend(Keep(init, p), tail, q);
    }
  }

  lemma {:induction false} KeepAppend<T(!new)>(a: seq<T>, b: seq<T>, p: T -> bool)
    ensures Keep(a + b, p) == Keep(a, p) + Keep(b, p)
    decreases |b|
  {
    if |b| > 0 {
      var ab := a + b;
      assert ab[..|ab| - 1] == a + b[..|b| - 1];
      KeepAppend(a, b[..|b| - 1], p);
    } else {
      assert a + b == a;
    }
  }

  /** A filter that keeps every element returns the sequence unchanged. */
  lemma {:induction false} KeepAll<T(!new)>(s: seq<T>, p: T -> bool)
    requires forall i :: 0 <= i < |s| ==> p(s[i])
    ensures Keep(s, p) == s
    decreases |s|
  {
    if |s| > 0 {
      var init := s[..|s| - 1];
      assert forall i :: 0 <= i < |init| ==> init[i] == s[i];
      KeepAll(init, p);
      assert s == init + [s[|s| - 1]];
    }
  }

  /** Filters that agree on every element give the same result. */
  lemma {:induction false} KeepSame<T(!new)>(s: seq<T>, p: T -> bool, q: T -> bool)
    requires forall x :: p(x) == q(x)
    ensures Keep(s, p) == Keep(s, q)
    decreases |s|
  {
    if |s| > 0 {
      KeepSame(s[..|s| - 1], p, q);
    }
  }

  predicate SortedBy<T(!new)>(s: seq<T>, key: T -> int) {
    forall i, j :: 0 <= i < j < |s| ==> key(s[i]) <= key(s[j])
  }

  /** Inserts `x` into the sorted `s` before the first element with a larger or equal key. */
  function InsertBy<T(!new)>(x: T, s: seq<T>, key: T -> int): (r: seq<T>)
    requires SortedBy(s, key)
    ensures SortedBy(r, key)
    ensures multiset(r) == multiset(s) + multiset{x}
    ensures |r| > 0 && (r[0] == x || (|s| > 0 && r[0] == s[0]))
    decreases |s|
  {
    if |s| == 0 then [x]
    else if key(x) <= key(s[0]) then [x] + s
    else
      var rest := InsertBy(x, s[1..], key);
      assert s == [s[0]] + s[1..];
      [s[0]] + rest
  }

  /** The rows of `s` ordered by ascending `key`. */
  function SortBy<T(!new)>(s: seq<T>, key: T -> int): (r: seq<T>)
    ensures SortedBy(r, key)
    ensures multiset(r) == multiset(s)
    decreases |s|
  {
    if |s| == 0 then []
    else
      assert s == [s[0]] + s[1..];
      InsertBy(s[0], SortBy(s[1..], key), key)
  }

  /** Sequences with the same multiset have the same elements. */
  lemma SameElements<T>(a: seq<T>, b: seq<T>)
    requires multiset(a) == multiset(b)
    ensures forall x :: x in a <==> x in b
  {
    forall x
      ensures x in a <==> x in b
    {
      assert x in a <==> x in multiset(a);
      assert x in b <==> x in multiset(b);
    }
  }
}

=== FILE: text.dfy ===
/**
 * String operations the components use: JavaScript's `trim` (used only as a
 * blank-input test), ASCII `toLowerCase`/`toUpperCase`, and `includes`.
 */
module Text {

  /** The characters `String.prototype.trim` strips: ECMAScript WhiteSpace and LineTerminator. */
  predicate IsSpace(c: char) {
    || c == '\t' || c == '\n' || c == '\U{B}' || c == '\U{C}' || c == '\r' || c == ' '
    || c == '\U{A0}' || c == '\U{1680}' || ('\U{2000}' <= c <= '\U{200A}')
    || c == '\U{2028}' || c == '\U{2029}' || c == '\U{202F}' || c == '\U{205F}'
    || c == '\U{3000}' || c == '\U{FEFF}'
  }

  /** Every character is white space (the empty string included). */
  predicate IsBlank(s: string) {
    forall i :: 0 <= i < |s| ==> IsSpace(s[i])
  }

  function TrimStart(s: string): (r: string)
    ensures |r| <= |s| && r == s[|s| - |r|..]
    ensures r == [] <==> IsBlank(s)
    ensures |r| > 0 ==> !IsSpace(r[0])
  {
    if |s| > 0 && IsSpace(s[0]) then
      assert IsBlank(s) <==> IsBlank(s[1..]) by {
        assert forall i :: 0 < i < |s| ==> s[i] == s[1..][i - 1];
      }
      TrimStart(s[1..])
    else s
  }

  function TrimEnd(s: string): (r: string)
    ensures |r| <= |s| && r == s[..|r|]
    ensures r == [] <==> IsBlank(s)
    ensures |r| > 0 ==> !IsSpace(r[|r| - 1])
  {
    if |s| > 0 && IsSpace(s[|s| - 1]) then
      assert IsBlank(s) <==> IsBlank(s[..|s| - 1]) by {
        assert forall i :: 0 <= i < |s| - 1 ==> s[i] == s[..|s| - 1][i];
      }
      TrimEnd(s[..|s| - 1])
    else s
  }

  /** `s.trim()`: `s` without its leading and trailing white space. */
  function Trim(s: string): (r: string)
    ensures |r| > 0 ==> !IsSpace(r[0]) && !IsSpace(r[|r| - 1])
  {
    TrimEnd(TrimStart(s))
  }

  /** `!s.trim()` holds exactly for the strings made only of white space. */
  lemma TrimEmptyIffBlank(s: string)
    ensures Trim(s) == [] <==> IsBlank(s)
  {
    var t := TrimStart(s);
    if |t| > 0 {
      assert !IsBlank(t) by { assert !IsSpace(t[0]); }
    }
  }

  function LowerChar(c: char): (d: char)
    ensures 'A' <= c <= 'Z' ==> 'a' <= d <= 'z'
    ensures !('A' <= c <= 'Z') ==> d == c
  {
    if 'A' <= c <= 'Z' then (c as int - 'A' as int + 'a' as int) as char else c
  }

  function UpperChar(c: char): (d: char)
    ensures 'a' <= c <= 'z' ==> 'A' <= d <= 'Z'
    ensures !('a' <= c <= 'z') ==> d == c
  {
    if 'a' <= c <= 'z' then (c as int - 'a' as int + 'A' as int) as char else c
  }

  /** `s.toLowerCase()` restricted to ASCII letters. */
  function Lower(s: string): (r: string)
    ensures |r| == |s|
    ensures forall i :: 0 <= i < |s| ==> r[i] == LowerChar(s[i])
  {
    seq(|s|, i requires 0 <= i < |s| => LowerChar(s[i]))
  }

  /** `s.toUpperCase()` restricted to ASCII letters. */
  function Upper(s: string): (r: string)
    ensures |r| == |s|
    ensures forall i :: 0 <= i < |s| ==> r[i] == UpperChar(s[i])
  {
    seq(|s|, i requires 0 <= i < |s| => UpperChar(s[i]))
  }

  /** Two strings that differ only in letter case have the same lower-case form. */
  lemma LowerIgnoresCase(s: string)
    ensures Lower(Upper(s)) == Lower(s)
    ensures Lower(Lower(s)) == Lower(s)
  {
  }

  lemma UpperIgnoresCase(s: string)
    ensures Upper(Lower(s)) == Upper(s)
    ensures Upper(Upper(s)) == Upper(s)
  {
  }

  /** `needle` occurs in `hay` starting at position `i`. */
  predicate OccursAt(hay: string, needle: string, i: int) {
    0 <= i <= |hay| - |needle| && hay[i..i + |needle|] == needle
  }

  /** `hay.includes(needle)`: `needle` occurs in `hay` at some position. */
  predicate Includes(hay: string, needle: string)
    decreases |hay|
  {
    needle <= hay || (|hay| > 0 && Includes(hay[1..], needle))
  }

  /** `Includes` agrees with the occurrence-at-a-position reading of `includes`. */
  lemma {:induction false} IncludesIffOccurs(hay: string, needle: string)
    ensures Includes(hay, needle) <==> exists i :: OccursAt(hay, needle, i)
    decreases |hay|
  {
    if needle <= hay {
      assert OccursAt(hay, needle, 0);
    } else if |hay| > 0 {
      IncludesIffOccurs(hay[1..], needle);
      if exists i :: OccursAt(hay, needle, i) {
        var i :| OccursAt(hay, needle, i);
        assert i != 0;
        assert hay[1..][i - 1..i - 1 + |needle|] == hay[i..i + |needle|];
        assert OccursAt(hay[1..], needle, i - 1);
      }
      if Includes(hay[1..], needle) {
        var j :| OccursAt(hay[1..], needle, j);
        assert hay[1..][j..j + |needle|] == hay[j + 1..j + 1 + |needle|];
        assert OccursAt(hay, needle, j + 1);
      }
    }
  }
}

=== FILE: time_format.dfy ===
/**
 * `formatTime` of src/App.js: seconds rendered as `m:ss`, with JavaScript's
 * `Math.floor`, truncating `%` on numbers, and number-to-string conversion.
 */
module TimeFormat {
  import opened Wrappers

  predicate IsDigit(c: char) {
    '0' <= c <= '9'
  }

  predicate AllDigits(s: string) {
    forall i :: 0 <= i < |s| ==> IsDigit(s[i])
  }

  function DigitChar(d: nat): (c: char)
    requires d < 10
    ensures IsDigit(c)
  {
    ('0' as int + d) as char
  }

  /** The decimal numeral of `n`, without leading zeros (`String(n)` for a whole number). */
  function NatToDecimal(n: nat): (r: string)
    ensures |r| > 0 && AllDigits(r)
    ensures r[0] == '0' ==> n == 0
    ensures n < 10 ==> |r| == 1
    ensures 10 <= n < 100 ==> |r| == 2
    decreases n
  {
    if n < 10 then [DigitChar(n)] else NatToDecimal(n / 10) + [DigitChar(n % 10)]
  }

  /** The value of a decimal numeral. */
  function DecimalValue(s: string): nat
    requires AllDigits(s)
    decreases |s|
  {
    if |s| == 0 then 0
    else DecimalValue(s[..|s| - 1]) * 10 + (s[|s| - 1] as int - '0' as int)
  }

  /** Reading a numeral back gives the number it was printed from. */
  lemma {:induction false} DecimalRoundTrip(n: nat)
    ensures DecimalValue(NatToDecimal(n)) == n
    decreases n
  {
    if n >= 10 {
      var r := NatToDecimal(n);
      assert r[..|r| - 1] == NatToDecimal(n / 10);
      DecimalRoundTrip(n / 10);
    }
  }

  /** `String(i)` for an integer. */
  function IntToString(i: int): string {
    if i < 0 then "-" + NatToDecimal(-i) else NatToDecimal(i)
  }

  /** JavaScript's conversion of a finite number toward zero. */
  function Trunc(x: real): int {
    if x >= 0.0 then x.Floor else -((-x).Floor)
  }

  /** JavaScript's `a % b` on numbers: the remainder takes the sign of `a`. */
  function JsRemainder(a: real, b: real): real
    requires b != 0.0
  {
    a - b * Trunc(a / b) as real
  }

  /** `formatTime(time)`; a time of 0 (falsy) prints as "0:00". */
  function FormatTime(time: real): string {
    if time == 0.0 then "0:00"
    else
      var min := (time / 60.0).Floor;
      var sec := JsRemainder(time, 60.0).Floor;
      IntToString(min) + ":" + (if sec < 10 then "0" else "") + IntToString(sec)
  }

  /** Reads `m:ss` back into whole seconds, when the text has that shape. */
  function ParseClock(s: string): (r: Option<nat>)
    ensures r.Some? ==> |s| >= 4 && s[|s| - 3] == ':'
  {
    if |s| >= 4 && s[|s| - 3] == ':' && AllDigits(s[..|s| - 3]) && AllDigits(s[|s| - 2..])
      && DecimalValue(s[|s| - 2..]) < 60
    then Some(DecimalValue(s[..|s| - 3]) * 60 + DecimalValue(s[|s| - 2..]))
    else None
  }

  /** For a non-negative time the minutes and the seconds split its whole seconds. */
  lemma MinutesAndSeconds(time: real)
    requires time >= 0.0
    ensures var min := (time / 60.0).Floor;
            var sec := JsRemainder(time, 60.0).Floor;
            min >= 0 && 0 <= sec < 60 && min * 60 + sec == time.Floor
  {
    var min := (time / 60.0).Floor;
    assert Trunc(time / 60.0) == min;
    var rem := JsRemainder(time, 60.0);
    assert rem == time - 60.0 * min as real;
    assert min as real <= time / 60.0 < min as real + 1.0;
    assert 0.0 <= rem < 60.0;
    var sec := rem.Floor;
    assert sec as real <= rem < sec as real + 1.0;
    assert (sec + 60 * min) as real <= time < (sec + 60 * min) as real + 1.0;
  }

  /** The seconds field: two digits, zero-padded. */
  function PadSeconds(sec: nat): (r: string)
    requires sec < 60
    ensures |r| == 2 && AllDigits(r) && DecimalValue(r) == sec
  {
    DecimalRoundTrip(sec);
    if sec < 10 then
      var r := "0" + NatToDecimal(sec);
      assert r[..1] == "0";
      r
    else NatToDecimal(sec)
  }

  /** A clock text `m:ss` reads back as `m * 60 + ss`. */
  lemma {:induction false} ParseClockOfParts(min: nat, sec: nat)
    requires sec < 60
    ensures ParseClock(NatToDecimal(min) + ":" + PadSeconds(sec)) == Some(min * 60 + sec)
  {
    var m := NatToDecimal(min);
    var s := m + ":" + PadSeconds(sec);
    assert s[..|s| - 3] == m;
    assert s[|s| - 2..] == PadSeconds(sec);
    DecimalRoundTrip(min);
  }

  /**
   * A non-negative time prints as minutes, a colon and two second digits,
   * and reading the text back gives its whole seconds: the display loses
   * only the fraction.
   */
  lemma FormatTimeRoundTrip(time: real)
    requires time >= 0.0
    ensures ParseClock(FormatTime(time)) == Some(time.Floor)
  {
    if time != 0.0 {
      MinutesAndSeconds(time);
      var min := (time / 60.0).Floor;
      var sec := JsRemainder(time, 60.0).Floor;
      assert FormatTime(time) == NatToDecimal(min) + ":" + PadSeconds(sec);
      ParseClockOfParts(min, sec);
    } else {
      assert "0:00"[..1] == NatToDecimal(0);
      assert "0:00"[2..] == PadSeconds(0);
      ParseClockOfParts(0, 0);
      assert "0:00" == NatToDecimal(0) + ":" + PadSeconds(0);
    }
  }
}

=== FILE: transport.dfy ===
/**
 * The direct-audio player of src/App.js: the playlist-selection and transport
 * state machine, the host's eager room writes, and the handler that applies
 * an incoming room row. Each handler is a pure step from a `Player` to a new
 * `Player`, the commands it issues to the <audio> element, and the room write
 * it requests (if any).
 */
module Transport {
  import opened Wrappers
  import opened Rooms
  import opened Seqs

  /** A row of the `songs` table: its uploader (`user_id`), file URL, name and upload time. */
  datatype Song = Song(id: string, owner: string, url: string, name: string, createdAt: int)

  datatype Repeat = Off | All | One

  /** The component's React state that the handlers read and set. */
  datatype Player = Player(
    songs: seq<Song>,
    currentIndex: nat,
    isPlaying: bool,
    shuffle: bool,
    repeat: Repeat,
    room: Option<Room>,
    session: Option<User>)

  /** Commands to the <audio> element: set `currentTime`, `play()`, `pause()`, `load()`. */
  datatype AudioOp = Seek(time: real) | Play | Pause | Load

  /** One handler's effect: the new state, the audio commands in order, the room write. */
  datatype Step = Step(player: Player, audio: seq<AudioOp>, write: Option<RoomWrite>)

  /** A handler that returns early. */
  function Idle(p: Player): Step {
    Step(p, [], None)
  }

  /** The <audio> element is rendered only while the song list is non-empty. */
  predicate HasAudio(p: Player) {
    |p.songs| > 0
  }

  /** The index points into the song list whenever there is one. */
  predicate ValidIndex(p: Player) {
    |p.songs| == 0 || p.currentIndex < |p.songs|
  }

  /** Everything but the index and the play flag is left alone by the transport handlers. */
  predicate SameSettings(p: Player, q: Player) {
    q.songs == p.songs && q.shuffle == p.shuffle && q.repeat == p.repeat
    && q.room == p.room && q.session == p.session
  }

  /** The room columns written when a track starts from the beginning. */
  function StartPatch(song: Song): Patch {
    Patch(Some(song.url), Some(song.name), None, Some(0.0), Some(true))
  }

  /** The room columns written by play/pause: the track, the audio position, the new flag. */
  function TransportPatch(song: Song, time: real, playing: bool): Patch {
    Patch(Some(song.url), Some(song.name), None, Some(time), Some(playing))
  }

  /** `Math.floor(Math.random() * n)` where `roll` is the value `Math.random()` returned. */
  function RandomIndex(roll: real, n: nat): (k: nat)
    requires 0.0 <= roll < 1.0 && n > 0
    ensures k < n
    ensures k as real <= roll * n as real < k as real + 1.0
  {
    var x := roll * n as real;
    assert 0.0 <= x < n as real;
    x.Floor
  }

  /** Every index of a non-empty list is the outcome of some `Math.random()` value. */
  lemma RandomIndexCoversAll(n: nat, k: nat)
    requires k < n
    ensures 0.0 <= k as real / n as real < 1.0
    ensures RandomIndex(k as real / n as real, n) == k
  {
    var roll := k as real / n as real;
    assert roll * n as real == k as real;
  }

  /** nextSong with repeat off, shuffle off, on the last track: playback stops. */
  predicate StopsAtEnd(p: Player) {
    |p.songs| > 0 && p.repeat == Off && p.currentIndex == |p.songs| - 1 && !p.shuffle
  }

  /** Switches to track `k`, starts playing, and asks the host's write to publish it. */
  function StartTrack(p: Player, k: nat): (s: Step)
    requires k < |p.songs|
    ensures SameSettings(p, s.player) && s.audio == []
    ensures s.player.currentIndex == k && s.player.isPlaying
    ensures s.write == UpdateRoom(p.room, p.session, StartPatch(p.songs[k]))
  {
    Step(p.(currentIndex := k, isPlaying := true), [], UpdateRoom(p.room, p.session, StartPatch(p.songs[k])))
  }

  /** `nextSong` (src/App.js:191-216). `roll` is `Math.random()`. */
  function NextSong(p: Player, roll: real): (s: Step)
    requires 0.0 <= roll < 1.0
    ensures SameSettings(p, s.player) && s.audio == []
    ensures |p.songs| == 0 ==> s == Idle(p)
    ensures |p.songs| > 0 ==> s.player.currentIndex < |p.songs|
    ensures StopsAtEnd(p) ==> s.player == p.(isPlaying := false) && s.write == None
    ensures |p.songs| > 0 && !StopsAtEnd(p) ==>
      && s.player.isPlaying
      && s.write == UpdateRoom(p.room, p.session, StartPatch(p.songs[s.player.currentIndex]))
      && s.player.currentIndex == (if p.shuffle then RandomIndex(roll, |p.songs|)
                                   else (p.currentIndex + 1) % |p.songs|)
  {
    if |p.songs| == 0 then Idle(p)
    else
      var n := |p.songs|;
      var next := if p.shuffle then RandomIndex(roll, n) else (p.currentIndex + 1) % n;
      if p.repeat == Off && p.currentIndex == n - 1 && !p.shuffle then
        Step(p.(isPlaying := false), [], None)
      else
        StartTrack(p, next)
  }

  /** `prevSong` (src/App.js:219-239): the mirror of `nextSong` without the stop rule. */
  function PrevSong(p: Player, roll: real): (s: Step)
    requires 0.0 <= roll < 1.0
    ensures SameSettings(p, s.player) && s.audio == []
    ensures |p.songs| == 0 ==> s == Idle(p)
    ensures |p.songs| > 0 ==>
      && s.player.currentIndex < |p.songs|
      && s.player.isPlaying
      && s.write == UpdateRoom(p.room, p.session, StartPatch(p.songs[s.player.currentIndex]))
      && s.player.currentIndex == (if p.shuffle then RandomIndex(roll, |p.songs|)
                                   else (p.currentIndex - 1 + |p.songs|) % |p.songs|)
  {
    if |p.songs| == 0 then Idle(p)
    else
      var n := |p.songs|;
      var prev := if p.shuffle then RandomIndex(roll, n) else (p.currentIndex - 1 + n) % n;
      StartTrack(p, prev)
  }

  /**
   * `handleSongEnd` (src/App.js:242-256). With repeat one the track restarts
   * at 0 without touching the React play flag; otherwise it is `nextSong`.
   * The event comes from the <audio> element, which exists only with songs.
   */
  function HandleSongEnd(p: Player, roll: real): (s: Step)
    requires 0.0 <= roll < 1.0
    ensures p.repeat != One ==> s == NextSong(p, roll)
    ensures p.repeat == One && HasAudio(p) ==>
      && s.player == p
      && s.audio == [Seek(0.0), Play]
      && s.write == UpdateRoom(p.room, p.session, Patch(None, None, None, Some(0.0), Some(true)))
    ensures p.repeat == One && !HasAudio(p) ==> s == Idle(p)
  {
    if p.repeat == One then
      if HasAudio(p) then
        Step(p, [Seek(0.0), Play], UpdateRoom(p.room, p.session, Patch(None, None, None, Some(0.0), Some(true))))
      else Idle(p)
    else NextSong(p, roll)
  }

  /** `toggleRepeat` (src/App.js:259-263). */
  function ToggleRepeat(mode: Repeat): (r: Repeat)
    ensures r != mode
    ensures mode == Off ==> r == All
    ensures mode == All ==> r == One
    ensures mode == One ==> r == Off
  {
    match mode
    case Off => All
    case All => One
    case One => Off
  }

  /** The repeat button cycles with period exactly three. */
  lemma RepeatCycle(mode: Repeat)
    ensures ToggleRepeat(ToggleRepeat(ToggleRepeat(mode))) == mode
    ensures ToggleRepeat(ToggleRepeat(mode)) != mode
  {
  }

  /**
   * `togglePlay` (src/App.js:164-188). `audioTime` is the element's
   * `currentTime`. Building the update reads `songs[currentIndex]`, which
   * throws when the index is out of range, so then no write happens.
   */
  function TogglePlay(p: Player, audioTime: real): (s: Step)
    ensures SameSettings(p, s.player) && s.player.currentIndex == p.currentIndex
    ensures |p.songs| == 0 ==> s == Idle(p)
    ensures |p.songs| > 0 ==>
      && s.player.isPlaying == !p.isPlaying
      && s.audio == [if p.isPlaying then Pause else Play]
    ensures s.write.Some? ==>
      && p.currentIndex < |p.songs|
      && s.write == UpdateRoom(p.room, p.session,
                      TransportPatch(p.songs[p.currentIndex], audioTime, !p.isPlaying))
  {
    if |p.songs| == 0 then Idle(p)
    else
      var playing := !p.isPlaying;
      var write := if p.currentIndex < |p.songs|
        then UpdateRoom(p.room, p.session, TransportPatch(p.songs[p.currentIndex], audioTime, playing))
        else None;
      Step(p.(isPlaying := playing), [if playing then Play else Pause], write)
  }

  /** A host with a valid index always publishes a play/pause. */
  lemma TogglePlayPublishes(p: Player, audioTime: real)
    requires ValidIndex(p) && |p.songs| > 0 && IsHost(p.room, p.session)
    ensures TogglePlay(p, audioTime).write ==
      Some(RoomWrite(p.room.value.code, TransportPatch(p.songs[p.currentIndex], audioTime, !p.isPlaying)))
  {
  }

  /** `songs.findIndex(s => s.song_url === url)`: the first match, or -1. */
  function FindSongIndex(songs: seq<Song>, url: string): (k: int)
    ensures -1 <= k < |songs|
    ensures k == -1 <==> forall i :: 0 <= i < |songs| ==> songs[i].url != url
    ensures k >= 0 ==> songs[k].url == url && forall j :: 0 <= j < k ==> songs[j].url != url
    decreases |songs|
  {
    if |songs| == 0 then -1
    else if songs[0].url == url then 0
    else
      var k := FindSongIndex(songs[1..], url);
      assert forall i :: 1 <= i < |songs| ==> songs[i] == songs[1..][i - 1];
      if k == -1 then -1 else k + 1
  }

  /**
   * The realtime UPDATE handler (src/App.js:99-127): stores the row, switches
   * to the first song whose URL matches, seeks to `playback_time || 0`, and
   * mirrors `is_playing`. With no songs there is no <audio> element and the
   * `play()`/`pause()` call throws before the play flag is set.
   */
  function ApplyRoomUpdate(p: Player, u: Room): (s: Step)
    ensures s.write == None
    ensures s.player.songs == p.songs && s.player.room == Some(u)
    ensures s.player.shuffle == p.shuffle && s.player.repeat == p.repeat && s.player.session == p.session
    ensures Present(u.currentSongUrl) && FindSongIndex(p.songs, u.currentSongUrl.value) >= 0 ==>
      s.player.currentIndex == FindSongIndex(p.songs, u.currentSongUrl.value)
    ensures !(Present(u.currentSongUrl) && FindSongIndex(p.songs, u.currentSongUrl.value) >= 0) ==>
      s.player.currentIndex == p.currentIndex
    ensures HasAudio(p) ==>
      && s.player.isPlaying == u.isPlaying
      && s.audio == [Seek(ServerTime(u)), if u.isPlaying then Play else Pause]
    ensures !HasAudio(p) ==> s.player == p.(room := Some(u)) && s.audio == []
  {
    var stored := p.(room := Some(u));
    var k := if Present(u.currentSongUrl) then FindSongIndex(p.songs, u.currentSongUrl.value) else -1;
    var synced := if k >= 0 then stored.(currentIndex := k) else stored;
    if HasAudio(p) then
      Step(synced.(isPlaying := u.isPlaying), [Seek(ServerTime(u)), if u.isPlaying then Play else Pause], None)
    else
      Step(synced, [], None)
  }

  /** The first matching URL is the one a listener selects, so a song is found iff its URL is listed. */
  lemma RoomUpdateSelectsMatchingSong(p: Player, u: Room)
    requires Present(u.currentSongUrl)
    ensures (exists i :: 0 <= i < |p.songs| && p.songs[i].url == u.currentSongUrl.value) ==>
      p.songs[ApplyRoomUpdate(p, u).player.currentIndex].url == u.currentSongUrl.value
    ensures (forall i :: 0 <= i < |p.songs| ==> p.songs[i].url != u.currentSongUrl.value) ==>
      ApplyRoomUpdate(p, u).player.currentIndex == p.currentIndex
  {
  }

  /** Delivering the same row twice leaves the player as delivering it once, with the same commands. */
  lemma RoomUpdateIdempotent(p: Player, u: Room)
    ensures ApplyRoomUpdate(ApplyRoomUpdate(p, u).player, u) == ApplyRoomUpdate(p, u)
  {
  }

  /** The upload time, by which the song query orders its rows. */
  function UploadTime(s: Song): int {
    s.createdAt
  }

  function OwnedBy(id: string): Song -> bool {
    (s: Song) => s.owner == id
  }

  /**
   * The song query of `fetchSongs` (src/App.js:49-53): the rows uploaded by
   * one user, oldest first.
   */
  function SongsOf(table: seq<Song>, id: string): (r: seq<Song>)
    ensures forall s :: s in r <==> s in table && s.owner == id
    ensures multiset(r) == multiset(Keep(table, OwnedBy(id)))
    ensures SortedBy(r, UploadTime)
  {
    var kept := Keep(table, OwnedBy(id));
    var r := SortBy(kept, UploadTime);
    SameElements(r, kept);
    r
  }

  /** Installs a fetched list, resetting an index past its end to 0 (src/App.js:60-64). */
  function ReplaceSongs(p: Player, songs: seq<Song>): (q: Player)
    ensures q.songs == songs && ValidIndex(q)
    ensures p.currentIndex < |songs| || |songs| == 0 ==> q.currentIndex == p.currentIndex
    ensures p.currentIndex >= |songs| > 0 ==> q.currentIndex == 0
    ensures q.isPlaying == p.isPlaying && q.shuffle == p.shuffle && q.repeat == p.repeat
    ensures q.room == p.room && q.session == p.session
  {
    p.(songs := songs, currentIndex := if |songs| > 0 && p.currentIndex >= |songs| then 0 else p.currentIndex)
  }

  /**
   * `fetchSongs` (src/App.js:46-65). `table` is the `songs` table and
   * `failed` says the query returned an error. Without a session, or on an
   * error, nothing changes; otherwise the list becomes the signed-in user's
   * own uploads.
   */
  function FetchSongs(p: Player, table: seq<Song>, failed: bool): (q: Player)
    ensures p.session.None? || failed ==> q == p
    ensures p.session.Some? && !failed ==>
      && (forall s :: s in q.songs <==> s in table && s.owner == p.session.value.id)
      && multiset(q.songs) == multiset(Keep(table, OwnedBy(p.session.value.id)))
      && SortedBy(q.songs, UploadTime)
      && ValidIndex(q)
      && (p.currentIndex < |q.songs| || |q.songs| == 0 ==> q.currentIndex == p.currentIndex)
      && (p.currentIndex >= |q.songs| > 0 ==> q.currentIndex == 0)
    ensures q.isPlaying == p.isPlaying && q.shuffle == p.shuffle && q.repeat == p.repeat
    ensures q.room == p.room && q.session == p.session
  {
    if p.session.None? || failed then p
    else ReplaceSongs(p, SongsOf(table, p.session.value.id))
  }

  /** "Leave Room": `setRoom(null)`. */
  function LeaveRoom(p: Player): (q: Player)
    ensures q.room.None? && !IsHost(q.room, q.session)
    ensures q.songs == p.songs && q.currentIndex == p.currentIndex && q.isPlaying == p.isPlaying
    ensures q.shuffle == p.shuffle && q.repeat == p.repeat && q.session == p.session
  {
    p.(room := None)
  }

  /** A listener, or a player outside any room, never writes the room. */
  lemma ListenersNeverWrite(p: Player, roll: real, audioTime: real)
    requires 0.0 <= roll < 1.0
    requires !IsHost(p.room, p.session)
    ensures NextSong(p, roll).write == None && PrevSong(p, roll).write == None
    ensures HandleSongEnd(p, roll).write == None && TogglePlay(p, audioTime).write == None
  {
  }

  /** After leaving, no transport handler writes the room that was left. */
  lemma NoWritesAfterLeave(p: Player, roll: real, audioTime: real)
    requires 0.0 <= roll < 1.0
    ensures NextSong(LeaveRoom(p), roll).write == None
    ensures PrevSong(LeaveRoom(p), roll).write == None
    ensures HandleSongEnd(LeaveRoom(p), roll).write == None
    ensures TogglePlay(LeaveRoom(p), audioTime).write == None
  {
    ListenersNeverWrite(LeaveRoom(p), roll, audioTime);
  }

  /** Every handler keeps the index inside the song list. */
  lemma HandlersKeepIndexValid(p: Player, roll: real, audioTime: real, u: Room, table: seq<Song>, failed: bool)
    requires 0.0 <= roll < 1.0
    requires ValidIndex(p)
    ensures ValidIndex(NextSong(p, roll).player) && ValidIndex(PrevSong(p, roll).player)
    ensures ValidIndex(HandleSongEnd(p, roll).player) && ValidIndex(TogglePlay(p, audioTime).player)
    ensures ValidIndex(ApplyRoomUpdate(p, u).player) && ValidIndex(FetchSongs(p, table, failed))
  {
  }

  /** Without shuffle, "previous" undoes "next" whenever "next" advanced. */
  lemma PrevUndoesNext(p: Player, roll: real, roll': real)
    requires 0.0 <= roll < 1.0 && 0.0 <= roll' < 1.0
    requires !p.shuffle && p.currentIndex < |p.songs| && !StopsAtEnd(p)
    ensures PrevSong(NextSong(p, roll).player, roll').player.currentIndex == p.currentIndex
  {
    var n := |p.songs|;
    var i := p.currentIndex;
    var j := NextSong(p, roll).player.currentIndex;
    if i + 1 < n {
      assert j == i + 1;
      assert (j - 1 + n) % n == i by { ModSmall(i + n, n, i); }
    } else {
      assert j == 0 by { ModSmall(i + 1, n, 0); }
      assert (j - 1 + n) % n == i;
    }
  }

  /**
   * Without shuffle, "next" undoes "previous" except when repeat is off and
   * "previous" wrapped from the first track to the last: there "next" stops.
   */
  lemma NextUndoesPrev(p: Player, roll: real, roll': real)
    requires 0.0 <= roll < 1.0 && 0.0 <= roll' < 1.0
    requires !p.shuffle && p.currentIndex < |p.songs|
    ensures NextSong(PrevSong(p, roll).player, roll').player.currentIndex == p.currentIndex
        <==> p.repeat != Off || p.currentIndex != 0 || |p.songs| == 1
  {
    var n := |p.songs|;
    var i := p.currentIndex;
    var q := PrevSong(p, roll).player;
    var j := q.currentIndex;
    if i == 0 {
      assert j == n - 1 by { assert (i - 1 + n) % n == n - 1; }
      if p.repeat == Off {
        assert StopsAtEnd(q);
      } else {
        assert (j + 1) % n == 0;
      }
    } else {
      assert j == i - 1 by { ModSmall(i - 1 + n, n, i - 1); }
      assert !StopsAtEnd(q);
      assert (j + 1) % n == i;
    }
  }

  lemma ModSmall(a: int, n: int, r: int)
    requires n > 0 && 0 <= r < n && (a == r || a == r + n)
    ensures a % n == r
  {
  }

  /** With shuffle on, "next" can land on any index of the list. */
  lemma ShuffleReachesEveryIndex(p: Player, k: nat)
    requires p.shuffle && k < |p.songs|
    ensures 0.0 <= k as real / |p.songs| as real < 1.0
    ensures NextSong(p, k as real / |p.songs| as real).player.currentIndex == k
    ensures PrevSong(p, k as real / |p.songs| as real).player.currentIndex == k
  {
    RandomIndexCoversAll(|p.songs|, k);
  }

  /** Song URLs identify songs: the uploader's storage issues one URL per file. */
  predicate DistinctUrls(songs: seq<Song>) {
    forall i, j :: 0 <= i < j < |songs| ==> songs[i].url != songs[j].url
  }

  /**
   * The host's "next" reaches a listener who holds the same list: applying
   * the host's write to the room row and delivering the row puts the listener
   * on the host's track, at position 0, playing.
   */
  lemma HostNextReachesListener(host: Player, listener: Player, roll: real)
    requires 0.0 <= roll < 1.0
    requires IsHost(host.room, host.session)
    requires listener.songs == host.songs && DistinctUrls(host.songs)
    requires forall i :: 0 <= i < |host.songs| ==> host.songs[i].url != ""
    requires |host.songs| > 0 && !StopsAtEnd(host)
    ensures NextSong(host, roll).write.Some?
    ensures
      var moved := NextSong(host, roll);
      var row := ApplyPatch(host.room.value, moved.write.value.patch);
      var heard := ApplyRoomUpdate(listener, row);
      && heard.player.currentIndex == moved.player.currentIndex
      && heard.player.isPlaying
      && heard.audio == [Seek(0.0), Play]
  {
    var moved := NextSong(host, roll);
    var k := moved.player.currentIndex;
    var row := ApplyPatch(host.room.value, moved.write.value.patch);
    assert row.currentSongUrl == Some(host.songs[k].url);
    var found := FindSongIndex(listener.songs, host.songs[k].url);
    assert found == k;
  }

  /**
   * Uploads are stored under a path that starts with the uploader's id
   * (src/UploadSong.js:14), so two rows with the same URL have the same owner.
   */
  predicate UrlsNameOwner(table: seq<Song>) {
    forall a, b :: a in table && b in table && a.url == b.url ==> a.owner == b.owner
  }

  /**
   * As written, a listener who is another user never finds the host's track:
   * each client lists only its own uploads, so the URL matches none of the
   * listener's songs. The listener keeps its index and plays one of its own
   * songs from 0.
   */
  lemma OtherListenerKeepsOwnTrack(host: Player, listener: Player, table: seq<Song>, roll: real)
    requires 0.0 <= roll < 1.0
    requires IsHost(host.room, host.session) && listener.session.Some?
    requires listener.session.value.id != host.session.value.id
    requires UrlsNameOwner(table)
    requires host.songs == SongsOf(table, host.session.value.id)
    requires listener.songs == SongsOf(table, listener.session.value.id)
    requires |host.songs| > 0 && !StopsAtEnd(host)
    requires ValidIndex(listener) && |listener.songs| > 0
    ensures NextSong(host, roll).write.Some?
    ensures
      var moved := NextSong(host, roll);
      var row := ApplyPatch(host.room.value, moved.write.value.patch);
      var heard := ApplyRoomUpdate(listener, row);
      && heard.player.currentIndex == listener.currentIndex
      && listener.songs[heard.player.currentIndex].owner != host.session.value.id
      && heard.player.isPlaying
      && heard.audio == [Seek(0.0), Play]
  {
    var moved := NextSong(host, roll);
    var song := host.songs[moved.player.currentIndex];
    assert song in table && song.owner == host.session.value.id;
    forall i | 0 <= i < |listener.songs|
      ensures listener.songs[i].url != song.url
    {
      assert listener.songs[i] in listener.songs;
    }
    assert listener.songs[listener.currentIndex] in listener.songs;
  }

  /** Whose uploads a client lists, corrected: in a room the host's, otherwise the user's own. */
  function ListOwner(p: Player): (id: string)
    requires p.session.Some?
    ensures p.room.Some? ==> id == p.room.value.hostId
    ensures p.room.None? ==> id == p.session.value.id
    ensures IsHost(p.room, p.session) ==> id == p.session.value.id
  {
    if p.room.Some? then p.room.value.hostId else p.session.value.id
  }

  /** `fetchSongs`, corrected to list the room host's uploads while in a room. */
  function FetchRoomSongs(p: Player, table: seq<Song>, failed: bool): (q: Player)
    ensures p.session.None? || failed ==> q == p
    ensures p.session.Some? && !failed ==>
      && (forall s :: s in q.songs <==> s in table && s.owner == ListOwner(p))
      && multiset(q.songs) == multiset(Keep(table, OwnedBy(ListOwner(p))))
      && SortedBy(q.songs, UploadTime)
      && ValidIndex(q)
      && (p.currentIndex < |q.songs| || |q.songs| == 0 ==> q.currentIndex == p.currentIndex)
      && (p.currentIndex >= |q.songs| > 0 ==> q.currentIndex == 0)
    ensures p.room.None? || IsHost(p.room, p.session) ==> FetchRoomSongs(p, table, failed) == FetchSongs(p, table, failed)
    ensures q.isPlaying == p.isPlaying && q.shuffle == p.shuffle && q.repeat == p.repeat
    ensures q.room == p.room && q.session == p.session
  {
    if p.session.None? || failed then p
    else ReplaceSongs(p, SongsOf(table, ListOwner(p)))
  }

  /**
   * With the corrected fetch, the host's "next" reaches a listener who is
   * another user: both list the host's uploads, so the listener moves to the
   * host's track, seeks to 0 and plays.
   */
  lemma RoomFetchReachesListener(host: Player, listener: Player, table: seq<Song>, roll: real)
    requires 0.0 <= roll < 1.0
    requires IsHost(host.room, host.session) && listener.session.Some? && listener.room == host.room
    requires DistinctUrls(SongsOf(table, host.session.value.id))
    requires forall s :: s in table ==> s.url != ""
    requires !StopsAtEnd(FetchRoomSongs(host, table, false))
    requires |SongsOf(table, host.session.value.id)| > 0
    ensures
      var h := FetchRoomSongs(host, table, false);
      var l := FetchRoomSongs(listener, table, false);
      var moved := NextSong(h, roll);
      var row := ApplyPatch(h.room.value, moved.write.value.patch);
      var heard := ApplyRoomUpdate(l, row);
      && l.songs == h.songs
      && heard.player.currentIndex == moved.player.currentIndex
      && heard.player.isPlaying
      && heard.audio == [Seek(0.0), Play]
  {
    var h := FetchRoomSongs(host, table, false);
    var l := FetchRoomSongs(listener, table, false);
    assert l.songs == h.songs;
    forall i | 0 <= i < |h.songs|
      ensures h.songs[i].url != ""
    {
      assert h.songs[i] in h.songs;
    }
    HostNextReachesListener(h, l, roll);
  }
}

=== FILE: video_sync.dfy ===
/**
 * The playback-sync rules shared by the two YouTube players
 * (src/YouTubeMiniPlayer.js, src/RoomYouTubePlayer.js): the listener's drift
 * reconciler, the host's heartbeat, and the host's play/pause button. The
 * IFrame player is observed through sampled values (`getCurrentTime`,
 * `getPlayerState`) and driven by the commands returned here.
 */
module VideoSync {
  import opened Wrappers
  import opened Rooms

  /** `seekTo(t, true)`, `playVideo()`, `pauseVideo()`. */
  datatype PlayerOp = SeekTo(time: real) | PlayVideo | PauseVideo

  /** The IFrame player's state value for "playing". */
  const Playing: int := 1

  /** Seeking happens only for a drift strictly above one second. */
  const DriftLimit: real := 1.0

  function Abs(x: real): real {
    if x < 0.0 then -x else x
  }

  /** The listener's effect runs only for a ready, non-host player with a video selected. */
  predicate ListenerActive(room: Room, ready: bool, isHost: bool) {
    Present(room.currentVideoId) && ready && !isHost
  }

  /**
   * The listener's `sync`: seek to `playback_time || 0` when the sampled
   * local time is more than a second away, then mirror `is_playing`.
   */
  function ListenerSync(room: Room, ready: bool, isHost: bool, localTime: real): (ops: seq<PlayerOp>)
    ensures !ListenerActive(room, ready, isHost) ==> ops == []
    ensures ListenerActive(room, ready, isHost) ==>
      && |ops| > 0
      && ops[|ops| - 1] == (if room.isPlaying then PlayVideo else PauseVideo)
      && (|ops| == 2 <==> Abs(localTime - ServerTime(room)) > DriftLimit)
      && (|ops| == 2 ==> ops[0] == SeekTo(ServerTime(room)))
      && |ops| <= 2
  {
    if !ListenerActive(room, ready, isHost) then []
    else
      var serverTime := ServerTime(room);
      var seek := if Abs(localTime - serverTime) > DriftLimit then [SeekTo(serverTime)] else [];
      seek + [if room.isPlaying then PlayVideo else PauseVideo]
  }

  /** What the listener's IFrame player shows: its position and whether it runs. */
  datatype VideoPlayer = VideoPlayer(time: real, playing: bool)

  function Perform(p: VideoPlayer, ops: seq<PlayerOp>): VideoPlayer
    decreases |ops|
  {
    if |ops| == 0 then p
    else
      var q := match ops[0]
        case SeekTo(t) => p.(time := t)
        case PlayVideo => p.(playing := true)
        case PauseVideo => p.(playing := false);
      Perform(q, ops[1..])
  }

  /**
   * After a sync the listener is within a second of the authoritative
   * position and runs exactly when the room says so; a position already
   * within the limit is not touched.
   */
  lemma {:induction false} SyncConverges(room: Room, isHost: bool, p: VideoPlayer)
    requires ListenerActive(room, true, isHost)
    ensures
      var q := Perform(p, ListenerSync(room, true, isHost, p.time));
      && Abs(q.time - ServerTime(room)) <= DriftLimit
      && q.playing == room.isPlaying
      && (Abs(p.time - ServerTime(room)) <= DriftLimit ==> q.time == p.time)
  {
    var ops := ListenerSync(room, true, isHost, p.time);
    var last := if room.isPlaying then PlayVideo else PauseVideo;
    PerformOne(p, last);
    if |ops| == 2 {
      var p1 := p.(time := ServerTime(room));
      assert ops[1..] == [last];
      assert Perform(p, ops) == Perform(p1, [last]);
      PerformOne(p1, last);
      assert Abs(ServerTime(room) - ServerTime(room)) == 0.0;
    } else {
      assert ops == [last];
    }
  }

  /** A play or pause command changes only whether the player runs. */
  lemma PerformOne(p: VideoPlayer, op: PlayerOp)
    requires op == PlayVideo || op == PauseVideo
    ensures Perform(p, [op]) == p.(playing := op == PlayVideo)
  {
    assert [op][1..] == [];
  }

  /**
   * Re-running the sync on the state it produced issues no seek and changes
   * nothing: a repeated delivery of the same row does not restart or jump.
   */
  lemma SyncIdempotent(room: Room, isHost: bool, p: VideoPlayer)
    requires ListenerActive(room, true, isHost)
    ensures
      var q := Perform(p, ListenerSync(room, true, isHost, p.time));
      && ListenerSync(room, true, isHost, q.time) == [if room.isPlaying then PlayVideo else PauseVideo]
      && Perform(q, ListenerSync(room, true, isHost, q.time)) == q
  {
    SyncConverges(room, isHost, p);
    var q := Perform(p, ListenerSync(room, true, isHost, p.time));
    var ops := ListenerSync(room, true, isHost, q.time);
    assert ops[1..] == [];
  }

  /** The host's heartbeat runs only for a ready host with a video selected. */
  predicate HeartbeatActive(room: Room, ready: bool, isHost: bool) {
    Present(room.currentVideoId) && ready && isHost
  }

  /** The columns one heartbeat tick writes: the sampled time and whether the state is "playing". */
  function HeartbeatPatch(time: real, state: int): Patch {
    Patch(None, None, None, Some(time), Some(state == Playing))
  }

  /** One tick of the host's 2-second heartbeat, given the sampled time and player state. */
  function HeartbeatTick(room: Room, ready: bool, isHost: bool, time: real, state: int): (w: Option<RoomWrite>)
    ensures w.Some? <==> HeartbeatActive(room, ready, isHost)
    ensures w.Some? ==>
      && w.value.code == room.code
      && w.value.patch.playbackTime == Some(time)
      && w.value.patch.isPlaying == Some(state == Playing)
      && w.value.patch.songUrl.None? && w.value.patch.songName.None? && w.value.patch.videoId.None?
  {
    if HeartbeatActive(room, ready, isHost) then Some(RoomWrite(room.code, HeartbeatPatch(time, state))) else None
  }

  /**
   * A heartbeat reaches the listeners: once the host's tick is stored, a
   * listener's sync leaves it within a second of the host's sampled time,
   * running exactly when the host's player was in state 1.
   */
  lemma HeartbeatReachesListener(room: Room, hostTime: real, state: int, listenerIsHost: bool, p: VideoPlayer)
    requires HeartbeatActive(room, true, true) && !listenerIsHost
    ensures
      var w := HeartbeatTick(room, true, true, hostTime, state);
      var row := ApplyPatch(room, w.value.patch);
      var q := Perform(p, ListenerSync(row, true, listenerIsHost, p.time));
      Abs(q.time - hostTime) <= DriftLimit && q.playing == (state == Playing)
  {
    var row := ApplyPatch(room, HeartbeatTick(room, true, true, hostTime, state).value.patch);
    SyncConverges(row, listenerIsHost, p);
  }

  /**
   * The host's play/pause button: nothing for a non-host or before the player
   * is ready; otherwise state 1 pauses and writes `is_playing: false`, any
   * other state plays and writes `is_playing: true`.
   */
  function TogglePlayPause(room: Room, isHost: bool, ready: bool, state: int): (r: (seq<PlayerOp>, Option<RoomWrite>))
    ensures !isHost || !ready ==> r.0 == [] && r.1 == None
    ensures isHost && ready ==>
      && r.0 == [if state == Playing then PauseVideo else PlayVideo]
      && r.1 == Some(RoomWrite(room.code, Patch(None, None, None, None, Some(state != Playing))))
  {
    if !isHost || !ready then ([], None)
    else if state == Playing then
      ([PauseVideo], Some(RoomWrite(room.code, Patch(None, None, None, None, Some(false)))))
    else
      ([PlayVideo], Some(RoomWrite(room.code, Patch(None, None, None, None, Some(true)))))
  }

  /** The button flips the host's player and publishes the new flag, which listeners then mirror. */
  lemma ToggleFlipsAndPublishes(room: Room, state: int, p: VideoPlayer)
    requires p.playing <==> state == Playing
    ensures
      var (ops, w) := TogglePlayPause(room, true, true, state);
      Perform(p, ops).playing == !p.playing
      && ApplyPatch(room, w.value.patch).isPlaying == !p.playing
  {
    var (ops, w) := TogglePlayPause(room, true, true, state);
    assert ops[1..] == [];
  }
}

=== FILE: wrappers.dfy ===
/** Optional values: the model's rendering of JavaScript's `null`/`undefined`. */
module Wrappers {

  datatype Option<+T> = None | Some(value: T) {

    /** The value when present, `default` otherwise (JavaScript's `x ?? default`). */
    function GetOr(default: T): T {
      match this
      case Some(v) => v
      case None => default
    }
  }
}
